=== FILE: README.md ===
# Overbooked library client — a Dafny model of its core logic

Overbooked is a small library web app. A React client lists, searches,
issues, returns, reads and requests books. An Express/MongoDB server keeps
the catalog and a reading-activity log. This project models the client's
decision logic and the server's recent-activity pipeline as pure Dafny
functions over immutable datatypes, and proves properties of them.

| module | source | what it covers |
|---|---|---|
| `Common` | — | `Option`/`Result`; JS truthiness of optional strings; `a \|\| b` on strings; ASCII lower-casing; `String.includes`; `Array.filter`; a stable descending sort; `slice`-style windows |
| `Catalog` | `src/books.jsx` | search and category filter; issued/available split; popular-authors panel; category toggle; book card actions; local state after return and delete |
| `Preview` | `src/components/PDFViewer.jsx` | preview page index with next/previous; book id taken from the PDF URL |
| `ActivityFeed` | `server/routes/library.js` | `parseInt(page) \|\| 1`; `$lookup`/`$unwind`/`$project`; newest-first sort; five-item pages |
| `MyBooks` | `src/components/MyBooks.jsx` | cover URL and fallbacks; the guard in front of the reader; per-book reading progress |
| `AddBook` | `src/addbook.jsx` | which chosen files the form keeps; the multipart body of a submit |
| `RequestBook` | `src/components/RequestBook.jsx` | validation order; request payload; reply toast |
| `Notifications` | `src/components/Notifications.jsx` | unread badge; style and icon per type; click navigation; "Clear all" |
| `Config` | `src/config.js` | `apiRequest` URL, header merge, error message |

Effects are modelled as follows:
- A server reply (`response.ok` and its JSON `error` or `message` field) is a parameter.
- The stored user (`localStorage`) is a parameter.
- `Notifications.Click` takes whether its mark-as-read request threw as a parameter. For the other handlers, a request that throws is listed under "Left out".
- React state changes become the new value a function returns.

## Model

| member | source | states |
|---|---|---|
| `Catalog.FilteredBooks` | src/books.jsx:263-268 | a book is shown iff its title or author contains the search term ignoring case and no category is selected or it is in the selected one; multiplicities and catalog order are kept |
| `Catalog.EmptySearchShowsAll` | src/books.jsx:263-268 | an empty search with no category selected shows the whole catalog unchanged |
| `Catalog.SearchIgnoresCase` | src/books.jsx:264-265 | searching for the lower-cased term shows exactly the same books as the term itself |
| `Common.Lower` | src/books.jsx:264-265 | lower-casing keeps the length, maps each character to its lower case, and leaves no upper-case letter |
| `Common.Includes` | src/books.jsx:264-265 | `includes` is true iff the term occurs at some position of the text |
| `Catalog.AvailableBooks` | src/books.jsx:271-274 | the available list is the shown books that no issued entry references by `bookID`, with their multiplicities and in order; with no issued list it is every shown book |
| `Catalog.AddAuthor` | src/books.jsx:307-317 | one reducer step bumps the author's entry or appends a fresh one with one book; other entries and names stay distinct and unchanged |
| `Catalog.Tally` | src/books.jsx:306-319 | the author statistics have one entry per author that is non-empty and not a member name every object inherits (`toString`, `constructor`, ...); names are distinct; each count equals the number of that author's books |
| `Catalog.TopAuthors` | src/books.jsx:322-324 | the panel holds min(4, number of tallied authors) entries with distinct names, in non-increasing count; each count is correct; every tallied author left out has no more books than any author shown |
| `Catalog.ToggleCategory` | src/books.jsx:477-480 | clicking the selected category clears the selection; any other click selects the clicked category |
| `Catalog.ToggleTwice` | src/books.jsx:477-480 | two clicks on one category restore the earlier selection iff nothing or that same category was selected |
| `Catalog.BookCard` | src/books.jsx:70-203 | a card offers Return iff the book is issued, Out of Stock iff not issued and `available <= 0`, else Request; Read Book iff there is a PDF and it is issued; Issue to Read iff there is a PDF and it is not issued; Delete iff admin |
| `Catalog.ReturnOfferedIffNotAvailable` | src/books.jsx:159-174 | for a shown book, the card offers Return iff the book is missing from the available list |
| `Catalog.FindIssued` | src/books.jsx:379-383 | the lookup finds the first entry whose `bookID` or `_id` equals the id, and finds nothing iff no entry matches |
| `Catalog.MarkReturned` | src/books.jsx:405-411 | a matching book gains one available copy and loses one issued copy; each book's copy sum and every other field and book are unchanged |
| `Catalog.RemoveReturned` | src/books.jsx:414-417 | an entry is dropped iff its `bookID`, or failing that its `_id`, equals the returned id; the others keep their multiplicities and order |
| `Catalog.ReturnBook` | src/books.jsx:376-428 | a return is refused before any request iff the issued list is missing or no entry matches; the request carries the user's id, the found entry's `bookID` or else the given id, and the title; a failed reply gives the server's error or the fallback text; a successful one applies both local updates |
| `Catalog.ReturnKeepsCopyTotal` | src/books.jsx:405-411 | a return leaves the catalog's total of available plus issued copies unchanged |
| `Catalog.ReturnedBookNoLongerIssued` | src/books.jsx:414-417 | after a successful return the book's card no longer counts as issued |
| `Catalog.DeleteBook` | src/books.jsx:482-508 | non-admins are stopped iff not admin, with the admin-only text; a failed reply gives the server's error or the fallback; a success removes exactly the books with that id, keeping the others' multiplicities and order |
| `Catalog.DeleteOnlyHidesDeleted` | src/books.jsx:503 | after a delete, the grid under any search and category is what it showed before minus the deleted book, in order |
| `Preview.Load` | src/components/PDFViewer.jsx:20 | loading pages replaces the page count and leaves the index where it was |
| `Preview.Next` | src/components/PDFViewer.jsx:28-32 | next advances by one iff not on the last page, and keeps the index in range |
| `Preview.Prev` | src/components/PDFViewer.jsx:34-38 | previous steps back by one iff past the first page, and keeps the index in range |
| `Preview.PrevDisabled` | src/components/PDFViewer.jsx:80 | the previous button is disabled only where pressing it would do nothing; with the index in range, an enabled button steps back one page |
| `Preview.NextDisabled` | src/components/PDFViewer.jsx:89 | the next button is disabled only where pressing it would do nothing; with pages loaded and the index in range, an enabled button steps forward one page |
| `Preview.NextThenPrev` | src/components/PDFViewer.jsx:28-38 | before the last page, next then previous returns to the same page |
| `Preview.PrevThenNext` | src/components/PDFViewer.jsx:28-38 | after the first page, previous then next returns to the same page |
| `Preview.DisabledIffInert` | src/components/PDFViewer.jsx:78-93 | with pages loaded, each button is disabled exactly when pressing it would change nothing |
| `Preview.EmptyPreviewNextEnabledButInert` | src/components/PDFViewer.jsx:89 | with no pages, the next button is enabled yet pressing it does nothing |
| `Preview.PressesKeepIndexInRange` | src/components/PDFViewer.jsx:28-38 | any sequence of presses keeps the index within 0 .. max(0, pages - 1) |
| `Preview.FirstLoadValid` | src/components/PDFViewer.jsx:5-6 | the first load from the initial state leaves the index in range |
| `Preview.LastSegment` | src/components/PDFViewer.jsx:17 | `split('/').pop()` is the slash-free suffix that follows the last slash |
| `Preview.BeforeFirstDot` | src/components/PDFViewer.jsx:17 | `split('.')[0]` is the dot-free prefix that precedes the first dot |
| `Preview.PreviewBookId` | src/components/PDFViewer.jsx:17 | the preview id is the part of the URL's last segment before its first dot: a dot-free, slash-free prefix followed by a dot or the end |
| `Preview.BookIdOfUploadPath` | src/components/PDFViewer.jsx:17 | for `dir/stem.ext`, the derived id is exactly `stem` |
| `ActivityFeed.ParseInt` | server/routes/library.js:4 | `parseInt` gives a number iff digits follow the white space and sign; a negative result needs a minus sign |
| `ActivityFeed.ParseSignedDecimal` | server/routes/library.js:4 | white space, an optional sign and the numeral of n, followed by anything not starting with a digit, parse to n with that sign |
| `ActivityFeed.NegativePageRefused` | server/routes/library.js:4-6 | a query such as `?page=-2` gives a negative page and the handler answers with a server error |
| `ActivityFeed.OversizedPageRefused` | server/routes/library.js:4-53 | a query such as `?page=2000000000000000000` is read exactly, and the handler answers with the out-of-range skip error |
| `ActivityFeed.PageNumber` | server/routes/library.js:4 | the page is never 0: the parsed value when non-zero, else 1 (missing, NaN or 0) |
| `ActivityFeed.ParseDecimal` | server/routes/library.js:4 | a decimal numeral parses back to its value |
| `ActivityFeed.PageNumberRoundTrip` | server/routes/library.js:4 | `?page=n` written in decimal selects page n for every n >= 1 |
| `ActivityFeed.Skip` | server/routes/library.js:5-6 | the skip is five per earlier page, negative iff the page is below 1, and above 2^63 - 1 iff the page is above 1844674407370955162 |
| `ActivityFeed.UnwindUsers` | server/routes/library.js:28-38 | unwinding against one book yields one projected row per matching user, in order |
| `ActivityFeed.Project` | server/routes/library.js:31-38 | a row keeps the activity's id, page and time and takes the book's name and cover and the user's name |
| `ActivityFeed.BookMatches` | server/routes/library.js:10-15 | the book lookup holds exactly the books whose `_id` is the activity's `bookId` |
| `ActivityFeed.UserMatches` | server/routes/library.js:18-23 | the user lookup holds exactly the users whose `_id` is the activity's `userId` |
| `ActivityFeed.Unwind` | server/routes/library.js:25-30 | an activity yields one row per (book, user) pair: row i·(number of users)+j is the projection of book i with user j; every row carries the activity's id, page and time; none when either lookup is empty |
| `ActivityFeed.JoinOne` | server/routes/library.js:8-30 | the rows of one activity all carry its id, page and time, and there are none when no book or no user matches |
| `ActivityFeed.Joined` | server/routes/library.js:8-38 | every joined row carries the id, page and time of one of the activities |
| `ActivityFeed.JoinedAppend` | server/routes/library.js:8-38 | the lookup, unwind and projection work one activity at a time, so the join of two collections is the join of the first followed by the join of the second |
| `ActivityFeed.UnmatchedActivityDropped` | server/routes/library.js:8-30 | an activity whose book or user is missing contributes no row, at any position in the collection |
| `ActivityFeed.MatchedActivityProjected` | server/routes/library.js:8-38 | with a unique matching book and user, an activity contributes exactly its projection, in its own place between the rows of the activities before and after it |
| `ActivityFeed.JoinedRowsHaveSources` | server/routes/library.js:8-38 | every joined row is the projection of an activity with a book and a user whose ids it references |
| `ActivityFeed.Newest` | server/routes/library.js:40-42 | the feed is sorted by timestamp, newest first, and is a permutation of the joined rows |
| `ActivityFeed.PageOf` | server/routes/library.js:43-48 | page n is the slice [5(n-1), 5n) of the sorted rows, clipped; it has at most five items and stays sorted |
| `ActivityFeed.RecentActivity` | server/routes/library.js:2-55 | the handler fails iff the page number is negative or above 1844674407370955162, where the skip would exceed 2^63 - 1; a negative page gives the negative-skip error; otherwise it returns at most five newest-first joined rows, exactly the page's slice |
| `ActivityFeed.SkipCheck` | server/routes/library.js:6-53 | `$skip` accepts a page's skip iff the page is between 1 and 1844674407370955162; otherwise the error carries the skip and is the negative-skip error iff the page is below 1 |
| `ActivityFeed.PageFeed` | server/routes/library.js:8-49 | the rows of an accepted page: at most five, newest first, all from the join, exactly the page's slice of the sorted join |
| `ActivityFeed.PagesTile` | server/routes/library.js:43-48 | pages 1..n together are exactly the first 5n sorted rows, without gaps or overlaps |
| `MyBooks.CoverUrl` | src/components/MyBooks.jsx:182-184 | the cover is absolute URLs as given, other paths prefixed with the server origin, the placeholder when missing or empty; the result always starts with `http` |
| `MyBooks.CoverUrlIdempotent` | src/components/MyBooks.jsx:182-184 | resolving an already resolved cover changes nothing |
| `MyBooks.Card` | src/components/MyBooks.jsx:177-234 | each of title, author and category is the detail when present and non-empty, else "Unknown Title", "Unknown", "Uncategorized"; the alt text is the title or "Book Cover"; the rating is the detail or 0; the cover is the resolved cover URL; Read Book iff a PDF path is present |
| `MyBooks.ReadButtonIffReaderOpens` | src/components/MyBooks.jsx:129-243 | a card offers Read Book iff pressing it opens the reader rather than the no-PDF toast |
| `MyBooks.PageChange` | src/components/MyBooks.jsx:147-152 | saving a page sets that book's entry and leaves every other entry as it was |
| `MyBooks.InitialPage` | src/components/MyBooks.jsx:258 | the reader opens at the stored page, or 1 when none is stored or it is 0 |
| `MyBooks.ReportedPage` | src/components/MyBooks.jsx:17-20 | the page the reader reports is never below 1 |
| `MyBooks.StartIndex` | src/components/MyBooks.jsx:45 | the viewer opens at a non-negative index for a page of at least 1, and that index reports back the same page |
| `MyBooks.ResumeWherePaused` | src/components/MyBooks.jsx:17-45 | saving the reported page and reopening the book starts the viewer at the same zero-based page |
| `MyBooks.PageChangeIsolated` | src/components/MyBooks.jsx:147-152 | saving progress for one book does not change where another book reopens |
| `MyBooks.OpenReader` | src/components/MyBooks.jsx:129-140 | the reader is refused iff the book has no PDF path, with the fixed message; otherwise it opens the server URL of the PDF at the saved page |
| `AddBook.CoverFileChange` | src/addbook.jsx:22-28 | a chosen image becomes the cover file and clears the link; anything else leaves the form as it was |
| `AddBook.PdfFileChange` | src/addbook.jsx:30-35 | only an `application/pdf` file is kept |
| `AddBook.KeptCoverIsImage` | src/addbook.jsx:22-28 | the cover file, once set, is always an image |
| `AddBook.KeptPdfIsPdf` | src/addbook.jsx:30-35 | the PDF file, once set, is always `application/pdf` |
| `AddBook.Submit` | src/addbook.jsx:37-44 | submitting redirects to the login page iff no user is stored |
| `AddBook.SubmitFields` | src/addbook.jsx:46-68 | the body carries the form's name, author and category, the rating or "0", five available and five total copies, and the stored user |
| `AddBook.SubmitCoverPrecedence` | src/addbook.jsx:56-65 | the body has `cover` iff a file is set, `coverLink` iff no file and a non-empty link, never both, and `pdf` iff a PDF is set; `cover` and `pdf` carry the chosen files and `coverLink` carries the typed link |
| `AddBook.ChosenImageWins` | src/addbook.jsx:22-65 | after an image is chosen, a submit uploads it and sends no link, whatever link is typed afterwards |
| `RequestBook.Submit` | src/components/RequestBook.jsx:12-50 | a request is sent iff all three fields are filled and a user is logged in; the payload copies the fields |
| `RequestBook.FieldCheckComesFirst` | src/components/RequestBook.jsx:16-32 | an incomplete form reports the missing fields whether or not someone is logged in |
| `RequestBook.PayloadCopiesUser` | src/components/RequestBook.jsx:41-49 | the payload carries the user's id, name and e-mail, with status "pending" |
| `RequestBook.ReplyToast` | src/components/RequestBook.jsx:52-76 | an OK reply shows the success text; otherwise the server's message if non-empty, else "Failed to submit request", as an error |
| `RequestBook.FieldsAfterReply` | src/components/RequestBook.jsx:64-70 | after a success the book name, author and description all become empty, so the form is no longer complete; after a failure they are kept |
| `RequestBook.NoResendAfterSuccess` | src/components/RequestBook.jsx:16-70 | once the timer after a success has cleared the fields, submitting again sends nothing and asks for the fields |
| `RequestBook.RetryAfterFailureResends` | src/components/RequestBook.jsx:71-76 | after a failure, submitting again sends the same request |
| `Notifications.UnreadCount` | src/components/Notifications.jsx:18 | the count is 0 iff all are read, and equals the list length iff none is read |
| `Notifications.UnreadCountIsFilterLength` | src/components/Notifications.jsx:18 | the count equals the length of the list filtered to unread entries |
| `Notifications.UnreadCountAppend` | src/components/Notifications.jsx:18 | the count of a concatenation is the sum of the counts |
| `Notifications.ShowBadge` | src/components/Notifications.jsx:63-67 | the badge is shown iff some notification is unread |
| `Notifications.HueOf` | src/components/Notifications.jsx:45-54 | NEW_BOOK maps to green, BOOK_DELETED to red, every other type to blue |
| `Notifications.Style` | src/components/Notifications.jsx:45-54 | the border is the fixed left border in the shade 500 of the hue the type maps to |
| `Notifications.IconOf` | src/components/Notifications.jsx:5-14 | the glyph is the book-plus iff NEW_BOOK and the trash can iff BOOK_DELETED; its colour is the shade 500 of the type's hue |
| `Notifications.StyleAndIconAgree` | src/components/Notifications.jsx:5-54 | the border class and the icon's colour class, written separately, name the same colour |
| `Notifications.StyleDeterminedByHue` | src/components/Notifications.jsx:45-54 | two types share a border style iff they map to the same hue |
| `Notifications.Click` | src/components/Notifications.jsx:21-43 | a click navigates to /books, scrolling to and highlighting the book, iff mark-as-read settled, the type is NEW_BOOK and a book id is present; the dropdown closes iff mark-as-read settled |
| `Notifications.OnlyNewBookNavigates` | src/components/Notifications.jsx:29-35 | a notification of any other type never navigates |
| `Notifications.ToggleOpen` | src/components/Notifications.jsx:59 | the bell flips the dropdown between open and closed |
| `Notifications.ClearAllOffered` | src/components/Notifications.jsx:75 | "Clear all" is offered iff the list is non-empty |
| `Notifications.EmptyNoticeShown` | src/components/Notifications.jsx:86 | "No notifications" is shown iff the list is empty |
| `Notifications.DropdownHeaderConsistent` | src/components/Notifications.jsx:75-90 | exactly one of "Clear all" and the empty notice shows, and a shown badge implies something to clear |
| `Config.BearerToken` | src/config.js:11 | the token is "Bearer " followed by the user's id, or by "undefined" when the id is missing |
| `Config.DefaultHeaders` | src/config.js:6-12 | the defaults always hold the JSON content type and hold Authorization iff a user is stored, with the bearer token |
| `Config.MergeHeaders` | src/config.js:16-19 | the merged keys are the union; a caller header wins on a shared key; every other default survives |
| `Config.BuildRequest` | src/config.js:14-20 | the URL is the API base followed by the endpoint; the method, the body and every other caller option are passed through |
| `Config.DefaultsWhenCallerSilent` | src/config.js:6-19 | without caller headers, the request carries exactly the content type and, with a user, the bearer token |
| `Config.CallerOverridesDefaults` | src/config.js:14-19 | a caller header replaces the default of the same name; unnamed defaults reach the request; nothing else appears |
| `Config.ContentTypeIsJsonUnlessOverridden` | src/config.js:6-19 | the content type is JSON unless the caller sets it |
| `Config.UrlDeterminesEndpoint` | src/config.js:14 | different endpoints always give different URLs |
| `Config.Settle` | src/config.js:22-27 | an OK response resolves to its payload; otherwise the error is the body's `error` if non-empty, else "API request failed" |
| `Config.ErrorMessageNeverEmpty` | src/config.js:22-25 | a thrown error always has a non-empty message |

## Left out

- Network calls, `fetch`, `localStorage`, timers and React rendering are not modelled. Their results are parameters, as described above.
- `handleIssueBook` in `src/books.jsx` posts to the server and shows a toast; `returnBook` in `MyBooks.jsx` posts, shows a toast and, on success, reloads the issued list with `fetchIssuedBooks`. Neither is modelled, because both are network round trips whose effect on the server the client code does not decide.
- `getRandomColor` for author entries is left out; it is random.
- The reading-progress fetch on mount is left out; it is I/O only.
- Catalog.FilteredBooks: lower-cases ASCII letters only; JavaScript's full Unicode `toLowerCase` is not modelled.
- Common.Lower: maps only the ASCII letters `A`-`Z` to lower case and leaves every other character as it is; JavaScript's full Unicode `toLowerCase` is not modelled.
- Catalog.Tally: keeps first-seen order. `Object.values` would list integer-like author names first, and that quirk is not modelled.
- Catalog.Tally: skips an author named after an inherited member, as the reducer does. The `NaN` the reducer then writes into that member's `books` property is not modelled; it changes no entry of the panel.
- Catalog.FilteredBooks: every book carries a title and an author string. A book without either field makes `toLowerCase` throw (src/books.jsx:264-265) and the page fails to render; that is not modelled.
- Catalog.ReturnBook: the reply is always a well-formed object. A `fetch` that throws, or a reply body that is not JSON, ends in the catch block with the engine's message as an error toast and no state change; that is not modelled.
- Catalog.DeleteBook: the reply is always a well-formed object. A `fetch` that throws, or a non-JSON error body, ends in the catch block with the engine's message as an error toast; that is not modelled.
- Catalog.TopAuthors: uses a stable sort. `Array.prototype.sort` is stable, so ties keep first-seen order.
- ActivityFeed.Newest: keeps ties in join order. MongoDB leaves the order of equal timestamps unspecified, so the model picks one admissible order.
- ActivityFeed.ParseInt: reads ASCII white space, a sign, an optional `0x` prefix and digits. Unicode white space and the precision loss of very large numbers are not modelled.
- ActivityFeed.RecentActivity: treats a negative skip, and a skip above 2^63 - 1, as the server errors MongoDB raises; the error text is not modelled. The page and the skip are exact integers here, while JavaScript computes them as doubles; how those doubles round near 2^63, and so the exact page at which the refusal starts, is not modelled.
- Timestamps are integers rather than dates, and book and user ids are strings rather than ObjectIds.
- MyBooks.Card: takes a rating that is present as a real. A NaN rating, which `|| 0` would also replace, is not modelled.
- Preview.Load: keeps the current index when a new page list arrives, as the component does; the page list of a new URL is not reset.
- Preview.Load: the reply always holds a page list. A reply without `pages` leaves the list undefined, and reading its length (src/components/PDFViewer.jsx:89, 98) then throws; that is not modelled.
- The `setTimeout` debounce in front of `onPageChange`, and the two-second delay before the request form clears, are not modelled. Only their end states are.
- Config.MergeHeaders: compares header names exactly. `fetch` treats them case-insensitively, and that is not modelled.
- Config.Settle: does not model a non-JSON error body, which would make `response.json()` throw.
- RequestBook.Submit: models the user as present or absent. The JS truthiness of other user values is not modelled.
- RequestBook.ReplyToast: the body is always JSON. The component parses it before looking at `ok` (src/components/RequestBook.jsx:52), so a non-JSON body, or a `fetch` that throws, gives an error toast with the engine's message even for an OK status; that is not modelled.
- RequestBook.NoResendAfterSuccess: states the form after the two-second timer. Before it fires, `loading` is already false again (src/components/RequestBook.jsx:77-78) and the fields still hold their text, so a second press in that window sends the same request again. The `onClose` call in the timer is not modelled either.

=== FILE: activity.dfy ===
/**
  The recent-activity feed (`GET /library/reading-activity/recent` in
  `server/routes/library.js`): the page number taken from the query string,
  the inner join of reading-activity records with books and users, the
  projection, the newest-first sort, and the five-item page window.
 */
module ActivityFeed {
  import opened Common

  /** A stored reading event (`server/models/ReadingActivity.js`). */
  datatype Activity = Activity(
    id: string,
    userId: string,
    bookId: string,
    bookName: string,
    page: int,
    timestamp: int)

  /** The book fields the feed reads; `cover` may be missing. */
  datatype BookDoc = BookDoc(id: string, bookName: string, cover: Option<string>)

  /** The user fields the feed reads. */
  datatype UserDoc = UserDoc(id: string, username: string)

  /**
    One feed entry: the `$project` fields plus the `_id` that `$project`
    keeps unless told otherwise.
   */
  datatype FeedItem = FeedItem(
    id: string,
    bookName: string,
    bookCover: Option<string>,
    userName: string,
    page: int,
    timestamp: int)

  const PageSize: nat := 5

  // ---------------------------------------------------------------------
  // parseInt(req.query.page) || 1
  // ---------------------------------------------------------------------

  predicate IsSpace(c: char) {
    c == ' ' || c == '\t' || c == '\n' || c == '\r' || c == '\U{B}' || c == '\U{C}'
  }

  predicate IsDigit(c: char) { '0' <= c <= '9' }

  predicate IsHexDigit(c: char) { IsDigit(c) || 'a' <= c <= 'f' || 'A' <= c <= 'F' }

  function HexValue(c: char): nat
    requires IsHexDigit(c)
  {
    if IsDigit(c) then c as int - '0' as int
    else if 'a' <= c <= 'f' then c as int - 'a' as int + 10
    else c as int - 'A' as int + 10
  }

  /** The longest prefix of `s` whose characters all satisfy `p`. */
  function LeadingRun(s: string, p: char -> bool): (r: string)
    ensures r <= s
    ensures forall i :: 0 <= i < |r| ==> p(r[i])
    ensures |r| < |s| ==> !p(s[|r|])
  {
    if |s| == 0 || !p(s[0]) then ""
    else [s[0]] + LeadingRun(s[1..], p)
  }

  /** The value of a digit string in base `radix`, most significant digit first. */
  function DigitsValue(ds: string, radix: nat): nat
    requires radix == 10 || radix == 16
    requires forall i :: 0 <= i < |ds| ==> IsHexDigit(ds[i])
  {
    if |ds| == 0 then 0
    else DigitsValue(ds[..|ds| - 1], radix) * radix + HexValue(ds[|ds| - 1])
  }

  /** Drops leading ASCII white space. */
  function TrimStart(s: string): (r: string)
    ensures |r| <= |s| && s[|s| - |r|..] == r
    ensures |r| > 0 ==> !IsSpace(r[0])
  {
    if |s| > 0 && IsSpace(s[0]) then TrimStart(s[1..]) else s
  }

  /** Splits an optional leading sign off: whether it was `-`, and the rest. */
  function SplitSign(t: string): (r: (bool, string))
    ensures r.0 <==> |t| > 0 && t[0] == '-'
    ensures r.1 == if |t| > 0 && (t[0] == '-' || t[0] == '+') then t[1..] else t
  {
    if |t| > 0 && (t[0] == '-' || t[0] == '+') then (t[0] == '-', t[1..]) else (false, t)
  }

  predicate HasHexPrefix(u: string) {
    |u| >= 2 && u[0] == '0' && (u[1] == 'x' || u[1] == 'X')
  }

  /** The unsigned part: hexadecimal after `0x`, decimal otherwise; `None` when no digit follows. */
  function Magnitude(u: string): Option<nat> {
    if HasHexPrefix(u) then
      var ds := LeadingRun(u[2..], IsHexDigit);
      if |ds| == 0 then None else Some(DigitsValue(ds, 16))
    else
      var ds := LeadingRun(u, IsDigit);
      assert forall i :: 0 <= i < |ds| ==> IsHexDigit(ds[i]);
      if |ds| == 0 then None else Some(DigitsValue(ds, 10))
  }

  /**
    `parseInt` without a radix: leading white space, an optional sign, a
    `0x`/`0X` prefix selecting base 16, then as many digits as follow.
    `None` stands for `NaN` (no digits at all).
   */
  function ParseInt(s: string): (r: Option<int>)
    ensures r.Some? <==> Magnitude(SplitSign(TrimStart(s)).1).Some?
    ensures r.Some? && r.value < 0 ==> SplitSign(TrimStart(s)).0
  {
    var (negative, u) := SplitSign(TrimStart(s));
    match Magnitude(u)
    case None => None
    case Some(m) => Some(if negative then -(m as int) else m as int)
  }

  /** `parseInt(req.query.page) || 1`: `NaN` and `0` both become page 1. */
  function PageNumber(query: Option<string>): (page: int)
    ensures page != 0
    ensures query.Some? && ParseInt(query.value).Some? && ParseInt(query.value).value != 0
            ==> page == ParseInt(query.value).value
    ensures (query.None? || ParseInt(query.value).None? || ParseInt(query.value) == Some(0))
            ==> page == 1
  {
    match query
    case None => 1
    case Some(q) =>
      match ParseInt(q)
      case None => 1
      case Some(n) => if n == 0 then 1 else n
  }

  function DigitChar(d: nat): char
    requires d < 10
  {
    ('0' as int + d) as char
  }

  /** The decimal numeral of `n`, as a client would put it in `?page=`. */
  function Decimal(n: nat): (r: string)
    ensures |r| > 0
    ensures forall i :: 0 <= i < |r| ==> IsDigit(r[i])
  {
    if n < 10 then [DigitChar(n)] else Decimal(n / 10) + [DigitChar(n % 10)]
  }

  lemma {:induction false} DecimalValue(n: nat)
    ensures DigitsValue(Decimal(n), 10) == n
  {
    if n >= 10 {
      var d := Decimal(n);
      assert d[..|d| - 1] == Decimal(n / 10);
      DecimalValue(n / 10);
    }
  }

  /** A decimal numeral parses back to its value. */
  lemma ParseDecimal(n: nat)
    ensures ParseInt(Decimal(n)) == Some(n)
  {
    var d := Decimal(n);
    assert TrimStart(d) == d;
    assert SplitSign(d) == (false, d);
    assert !HasHexPrefix(d) by {
      if |d| >= 2 { assert IsDigit(d[1]); }
    }
    AllDigitsRun(d);
    DecimalValue(n);
    assert Magnitude(d) == Some(n);
  }

  lemma {:induction false} AllDigitsRun(s: string)
    requires forall i :: 0 <= i < |s| ==> IsDigit(s[i])
    ensures LeadingRun(s, IsDigit) == s
  {
    if |s| > 0 {
      AllDigitsRun(s[1..]);
      assert s == [s[0]] + s[1..];
    }
  }

  /** `?page=n` written in decimal selects page `n` for every `n >= 1`. */
  lemma PageNumberRoundTrip(n: nat)
    requires n >= 1
    ensures PageNumber(Some(Decimal(n))) == n
  {
    ParseDecimal(n);
  }

  /** Leading white space is skipped up to the first other character. */
  lemma {:induction false} TrimSpaces(ws: string, rest: string)
    requires forall i :: 0 <= i < |ws| ==> IsSpace(ws[i])
    requires |rest| > 0 && !IsSpace(rest[0])
    ensures TrimStart(ws + rest) == rest
  {
    if |ws| == 0 {
      assert ws + rest == rest;
    } else {
      assert (ws + rest)[1..] == ws[1..] + rest;
      TrimSpaces(ws[1..], rest);
    }
  }

  /** The digit run of a numeral followed by a non-digit is the numeral itself. */
  lemma {:induction false} DigitsThenStop(ds: string, tail: string)
    requires forall i :: 0 <= i < |ds| ==> IsDigit(ds[i])
    requires |tail| == 0 || !IsDigit(tail[0])
    ensures LeadingRun(ds + tail, IsDigit) == ds
  {
    if |ds| == 0 {
      assert ds + tail == tail;
    } else {
      assert (ds + tail)[0] == ds[0];
      assert (ds + tail)[1..] == ds[1..] + tail;
      DigitsThenStop(ds[1..], tail);
    }
  }

  /** The numeral of a positive number has no leading zero. */
  lemma {:induction false} DecimalNoLeadingZero(n: nat)
    requires n >= 1
    ensures Decimal(n)[0] != '0'
  {
    if n >= 10 {
      DecimalNoLeadingZero(n / 10);
      assert Decimal(n)[0] == Decimal(n / 10)[0];
    }
  }

  /** The unsigned part of a positive numeral followed by a non-digit is its value, read in base 10. */
  lemma MagnitudeOfDecimal(n: nat, tail: string)
    requires n >= 1
    requires |tail| == 0 || !IsDigit(tail[0])
    ensures Magnitude(Decimal(n) + tail) == Some(n)
  {
    var d := Decimal(n);
    var u := d + tail;
    DecimalNoLeadingZero(n);
    assert u[0] == d[0];
    DigitsThenStop(d, tail);
    DecimalValue(n);
  }

  /** An optional sign in front of a numeral is split off as it is written. */
  lemma SplitWrittenSign(sign: string, n: nat, tail: string)
    requires sign == "" || sign == "+" || sign == "-"
    ensures SplitSign(sign + Decimal(n) + tail) == (sign == "-", Decimal(n) + tail)
  {
    var d := Decimal(n);
    var u := d + tail;
    var t := sign + d + tail;
    assert t == sign + u;
    if sign == "" {
      assert t == u && t[0] == d[0] && IsDigit(d[0]);
    } else {
      assert t[0] == sign[0] && t[1..] == u;
    }
  }

  /** White space in front of an optional sign and a numeral is trimmed away. */
  lemma TrimBeforeSign(ws: string, sign: string, n: nat, tail: string)
    requires forall i :: 0 <= i < |ws| ==> IsSpace(ws[i])
    requires sign == "" || sign == "+" || sign == "-"
    ensures TrimStart(ws + sign + Decimal(n) + tail) == sign + Decimal(n) + tail
  {
    var d := Decimal(n);
    var t := sign + d + tail;
    assert ws + sign + d + tail == ws + t;
    assert !IsSpace(t[0]) by {
      if sign == "" { assert t[0] == d[0] && IsDigit(d[0]); } else { assert t[0] == sign[0]; }
    }
    TrimSpaces(ws, t);
  }

  /** `parseInt` put together from its three steps: trim, split the sign, read the magnitude. */
  lemma ParseIntSteps(s: string, t: string, negative: bool, u: string, m: nat)
    requires TrimStart(s) == t && SplitSign(t) == (negative, u) && Magnitude(u) == Some(m)
    ensures ParseInt(s) == Some(if negative then -(m as int) else m as int)
  {
    var (neg2, u2) := SplitSign(TrimStart(s));
    assert neg2 == negative && u2 == u;
    assert Magnitude(u2) == Some(m);
  }

  /**
    `parseInt` of white space, an optional sign and the numeral of `n`,
    followed by anything that does not start with a digit, is `n` with
    that sign: the white space is skipped and parsing stops at the tail.
   */
  lemma ParseSignedDecimal(ws: string, sign: string, n: nat, tail: string)
    requires forall i :: 0 <= i < |ws| ==> IsSpace(ws[i])
    requires sign == "" || sign == "+" || sign == "-"
    requires n >= 1
    requires |tail| == 0 || !IsDigit(tail[0])
    ensures ParseInt(ws + sign + Decimal(n) + tail) == Some(if sign == "-" then -(n as int) else n as int)
  {
    var d := Decimal(n);
    var t := sign + d + tail;
    var full := ws + sign + d + tail;
    TrimBeforeSign(ws, sign, n, tail);
    SplitWrittenSign(sign, n, tail);
    MagnitudeOfDecimal(n, tail);
    ParseIntSteps(full, t, sign == "-", d + tail, n);
  }

  /** A query like `?page=-2` asks for a negative page, which the handler answers with a server error. */
  lemma NegativePageRefused(ws: string, n: nat, tail: string, acts: seq<Activity>, books: seq<BookDoc>,
                            users: seq<UserDoc>)
    requires forall i :: 0 <= i < |ws| ==> IsSpace(ws[i])
    requires n >= 1 && (|tail| == 0 || !IsDigit(tail[0]))
    ensures PageNumber(Some(ws + "-" + Decimal(n) + tail)) == -(n as int)
    ensures RecentActivity(Some(ws + "-" + Decimal(n) + tail), acts, books, users).ServerError?
  {
    ParseSignedDecimal(ws, "-", n, tail);
  }

  /** A page beyond `MaxPage`, such as `?page=2000000000000000000`, makes the skip too large for MongoDB. */
  lemma OversizedPageRefused(ws: string, n: nat, tail: string, acts: seq<Activity>, books: seq<BookDoc>,
                             users: seq<UserDoc>)
    requires forall i :: 0 <= i < |ws| ==> IsSpace(ws[i])
    requires n > MaxPage && (|tail| == 0 || !IsDigit(tail[0]))
    ensures PageNumber(Some(ws + Decimal(n) + tail)) == n
    ensures RecentActivity(Some(ws + Decimal(n) + tail), acts, books, users) == ServerError(SkipOutOfRange(Skip(n)))
  {
    var q := ws + Decimal(n) + tail;
    UnsignedPageRead(ws, n, tail);
    var r := RecentActivity(Some(q), acts, books, users);
    assert r.ServerError? && !r.error.NegativeSkip?;
  }

  /** A page written without a sign reads back as itself. */
  lemma UnsignedPageRead(ws: string, n: nat, tail: string)
    requires forall i :: 0 <= i < |ws| ==> IsSpace(ws[i])
    requires n >= 1 && (|tail| == 0 || !IsDigit(tail[0]))
    ensures PageNumber(Some(ws + Decimal(n) + tail)) == n
  {
    var d := Decimal(n);
    assert ws + "" == ws;
    ParseSignedDecimal(ws, "", n, tail);
    assert ParseInt(ws + d + tail) == Some(n as int);
  }

  /** `(page - 1) * limit`. */
  function Skip(page: int): (skip: int)
    ensures skip < 0 <==> page < 1
    ensures skip > MaxSkip <==> page > MaxPage
    ensures skip == PageSize * (page - 1)
  {
    (page - 1) * PageSize
  }

  // ---------------------------------------------------------------------
  // $lookup + $unwind + $project
  // ---------------------------------------------------------------------

  /** `$project`: the feed entry for one activity joined with one book and one user. */
  function Project(a: Activity, b: BookDoc, u: UserDoc): (item: FeedItem)
    ensures item.id == a.id && item.page == a.page && item.timestamp == a.timestamp
    ensures item.bookName == b.bookName && item.bookCover == b.cover && item.userName == u.username
  {
    FeedItem(a.id, b.bookName, b.cover, u.username, a.page, a.timestamp)
  }

  /** The `$lookup` result for a book id. */
  function BookMatches(books: seq<BookDoc>, id: string): (r: seq<BookDoc>)
    ensures forall b :: b in r <==> b in books && b.id == id
    ensures forall b :: multiset(r)[b] == if b.id == id then multiset(books)[b] else 0
  {
    Filter(books, (b: BookDoc) => b.id == id)
  }

  /** The `$lookup` result for a user id. */
  function UserMatches(users: seq<UserDoc>, id: string): (r: seq<UserDoc>)
    ensures forall u :: u in r <==> u in users && u.id == id
    ensures forall u :: multiset(r)[u] == if u.id == id then multiset(users)[u] else 0
  {
    Filter(users, (u: UserDoc) => u.id == id)
  }

  /** Unwinding the user matches against one book. */
  function UnwindUsers(a: Activity, b: BookDoc, us: seq<UserDoc>): (r: seq<FeedItem>)
    ensures |r| == |us|
    ensures forall i :: 0 <= i < |us| ==> r[i] == Project(a, b, us[i])
  {
    if |us| == 0 then [] else [Project(a, b, us[0])] + UnwindUsers(a, b, us[1..])
  }

  /** The position of row `j` of block `i` when every block holds `n` rows. */
  function Row(i: nat, j: nat, n: nat): nat {
    i * n + j
  }

  /** Row `j` of block `i` lies inside the first `m` blocks, and past block 0 it is a row of the blocks after it. */
  lemma RowIndex(i: nat, j: nat, n: nat, m: nat)
    requires i < m && j < n
    ensures Row(i, j, n) < m * n
    ensures i > 0 ==> Row(i, j, n) == n + Row(i - 1, j, n)
  {
    assert (i + 1) * n <= m * n;
  }

  /** Putting the first book's block in front of the blocks of the other books keeps every row in its place. */
  lemma UnwindBlocks(a: Activity, bs: seq<BookDoc>, us: seq<UserDoc>, rest: seq<FeedItem>)
    requires |bs| > 0 && |rest| == (|bs| - 1) * |us|
    requires forall i, j :: 0 <= i < |bs| - 1 && 0 <= j < |us| ==>
      Row(i, j, |us|) < |rest| && rest[Row(i, j, |us|)] == Project(a, bs[1..][i], us[j])
    ensures var r := UnwindUsers(a, bs[0], us) + rest;
      forall i, j :: 0 <= i < |bs| && 0 <= j < |us| ==>
        Row(i, j, |us|) < |r| && r[Row(i, j, |us|)] == Project(a, bs[i], us[j])
  {
    var head := UnwindUsers(a, bs[0], us);
    var r := head + rest;
    forall i, j | 0 <= i < |bs| && 0 <= j < |us|
      ensures Row(i, j, |us|) < |r| && r[Row(i, j, |us|)] == Project(a, bs[i], us[j])
    {
      RowIndex(i, j, |us|, |bs|);
      if i > 0 {
        RowIndex(i - 1, j, |us|, |bs| - 1);
        assert bs[i] == bs[1..][i - 1];
        assert r[Row(i, j, |us|)] == rest[Row(i - 1, j, |us|)];
      } else {
        assert Row(i, j, |us|) == j;
      }
    }
  }

  /**
    `$unwind: '$bookDetails'` then `$unwind: '$userDetails'` for one
    activity: one row per (book, user) pair, books in the outer order.
   */
  function Unwind(a: Activity, bs: seq<BookDoc>, us: seq<UserDoc>): (r: seq<FeedItem>)
    ensures |r| == |bs| * |us|
    ensures forall i, j :: 0 <= i < |bs| && 0 <= j < |us| ==>
      Row(i, j, |us|) < |r| && r[Row(i, j, |us|)] == Project(a, bs[i], us[j])
    ensures forall k :: 0 <= k < |r| ==>
      r[k].id == a.id && r[k].page == a.page && r[k].timestamp == a.timestamp
    ensures |bs| == 0 || |us| == 0 ==> r == []
  {
    if |bs| == 0 then []
    else
      var head := UnwindUsers(a, bs[0], us);
      var rest := Unwind(a, bs[1..], us);
      var r := head + rest;
      UnwindBlocks(a, bs, us, rest);
      r
  }

  /** The rows for one activity: one per (book, user) pair whose ids match it. */
  function JoinOne(a: Activity, books: seq<BookDoc>, users: seq<UserDoc>): (r: seq<FeedItem>)
    ensures forall k :: 0 <= k < |r| ==>
      r[k].id == a.id && r[k].page == a.page && r[k].timestamp == a.timestamp
    ensures (forall b :: b in books ==> b.id != a.bookId) ==> r == []
    ensures (forall u :: u in users ==> u.id != a.userId) ==> r == []
  {
    var bs := BookMatches(books, a.bookId);
    var us := UserMatches(users, a.userId);
    assert (forall b :: b in books ==> b.id != a.bookId) ==> |bs| == 0 by {
      if |bs| > 0 { assert bs[0] in bs; }
    }
    assert (forall u :: u in users ==> u.id != a.userId) ==> |us| == 0 by {
      if |us| > 0 { assert us[0] in us; }
    }
    Unwind(a, bs, us)
  }

  /** The row carries the id, page and time of some activity of `acts`. */
  predicate FromActivity(item: FeedItem, acts: seq<Activity>) {
    exists m :: 0 <= m < |acts|
      && item.id == acts[m].id && item.page == acts[m].page && item.timestamp == acts[m].timestamp
  }

  /**
    The joined, projected collection before sorting, in activity order:
    every row carries the id, page and time of one of the activities.
   */
  function Joined(acts: seq<Activity>, books: seq<BookDoc>, users: seq<UserDoc>): (r: seq<FeedItem>)
    ensures forall k :: 0 <= k < |r| ==> FromActivity(r[k], acts)
  {
    if |acts| == 0 then []
    else
      var head := JoinOne(acts[0], books, users);
      var rest := Joined(acts[1..], books, users);
      var r := head + rest;
      assert forall k :: 0 <= k < |r| ==> FromActivity(r[k], acts) by {
        forall k | 0 <= k < |r| ensures FromActivity(r[k], acts) {
          if k < |head| {
            assert r[k] == head[k];
            assert acts[0].id == r[k].id;
          } else {
            assert r[k] == rest[k - |head|];
            assert FromActivity(rest[k - |head|], acts[1..]);
            var m :| 0 <= m < |acts[1..]| && rest[k - |head|].id == acts[1..][m].id
              && rest[k - |head|].page == acts[1..][m].page && rest[k - |head|].timestamp == acts[1..][m].timestamp;
            assert acts[1..][m] == acts[m + 1];
          }
        }
      }
      r
  }

  /** The join works activity by activity, so it distributes over concatenation. */
  lemma {:induction false} JoinedAppend(x: seq<Activity>, y: seq<Activity>, books: seq<BookDoc>, users: seq<UserDoc>)
    ensures Joined(x + y, books, users) == Joined(x, books, users) + Joined(y, books, users)
  {
    if |x| == 0 {
      assert x + y == y;
    } else {
      assert (x + y)[0] == x[0];
      assert (x + y)[1..] == x[1..] + y;
      JoinedAppend(x[1..], y, books, users);
    }
  }

  /** An activity whose book or user is missing contributes no row, wherever it sits in the collection. */
  lemma UnmatchedActivityDropped(before: seq<Activity>, a: Activity, after: seq<Activity>, books: seq<BookDoc>,
                                 users: seq<UserDoc>)
    requires (forall b :: b in books ==> b.id != a.bookId) || (forall u :: u in users ==> u.id != a.userId)
    ensures Joined(before + [a] + after, books, users) == Joined(before + after, books, users)
  {
    assert before + [a] + after == before + ([a] + after);
    JoinedAppend(before, [a] + after, books, users);
    JoinedAppend(before, after, books, users);
    UnmatchedHeadDropped(a, after, books, users);
  }

  /** The case of `UnmatchedActivityDropped` at the head of the collection. */
  lemma UnmatchedHeadDropped(a: Activity, rest: seq<Activity>, books: seq<BookDoc>, users: seq<UserDoc>)
    requires (forall b :: b in books ==> b.id != a.bookId) || (forall u :: u in users ==> u.id != a.userId)
    ensures Joined([a] + rest, books, users) == Joined(rest, books, users)
  {
    assert ([a] + rest)[1..] == rest;
    var bs := BookMatches(books, a.bookId);
    var us := UserMatches(users, a.userId);
    if forall b :: b in books ==> b.id != a.bookId {
      assert |bs| == 0 by { if |bs| > 0 { assert false; } }
    } else {
      assert |us| == 0 by { if |us| > 0 { assert false; } }
    }
  }

  /**
    Unique ids on both sides: an activity whose book and user exist yields
    exactly its projection, in its own place among the other activities' rows.
   */
  lemma MatchedActivityProjected(before: seq<Activity>, a: Activity, after: seq<Activity>, books: seq<BookDoc>,
                                 users: seq<UserDoc>, b: BookDoc, u: UserDoc)
    requires BookMatches(books, a.bookId) == [b] && UserMatches(users, a.userId) == [u]
    ensures Joined(before + [a] + after, books, users)
            == Joined(before, books, users) + [Project(a, b, u)] + Joined(after, books, users)
  {
    assert before + [a] + after == before + ([a] + after);
    JoinedAppend(before, [a] + after, books, users);
    MatchedHeadProjected(a, after, books, users, b, u);
  }

  /** The case of `MatchedActivityProjected` at the head of the collection. */
  lemma MatchedHeadProjected(a: Activity, rest: seq<Activity>, books: seq<BookDoc>, users: seq<UserDoc>,
                             b: BookDoc, u: UserDoc)
    requires BookMatches(books, a.bookId) == [b] && UserMatches(users, a.userId) == [u]
    ensures Joined([a] + rest, books, users) == [Project(a, b, u)] + Joined(rest, books, users)
  {
    assert ([a] + rest)[1..] == rest;
    assert UnwindUsers(a, b, [u]) == [Project(a, b, u)];
    assert Unwind(a, [b], [u]) == UnwindUsers(a, b, [u]) + Unwind(a, [], [u]);
    assert JoinOne(a, books, users) == [Project(a, b, u)];
  }

  /** Every row comes from an activity, a book with its `bookId` and a user with its `userId`. */
  lemma {:induction false} JoinedRowsHaveSources(acts: seq<Activity>, books: seq<BookDoc>, users: seq<UserDoc>,
                                                 item: FeedItem)
    requires item in Joined(acts, books, users)
    ensures exists a, b, u :: (a in acts && b in books && u in users
      && a.bookId == b.id && a.userId == u.id && item == Project(a, b, u))
  {
    var a := acts[0];
    var bs := BookMatches(books, a.bookId);
    var us := UserMatches(users, a.userId);
    if item in JoinOne(a, books, users) {
      UnwindSources(a, bs, us, item);
      var b, u :| b in bs && u in us && item == Project(a, b, u);
      assert a in acts;
    } else {
      JoinedRowsHaveSources(acts[1..], books, users, item);
      var a', b, u :| a' in acts[1..] && b in books && u in users
        && a'.bookId == b.id && a'.userId == u.id && item == Project(a', b, u);
      assert a' in acts;
    }
  }

  lemma {:induction false} UnwindSources(a: Activity, bs: seq<BookDoc>, us: seq<UserDoc>, item: FeedItem)
    requires item in Unwind(a, bs, us)
    ensures exists b, u :: b in bs && u in us && item == Project(a, b, u)
  {
    if item in UnwindUsers(a, bs[0], us) {
      var i :| 0 <= i < |us| && UnwindUsers(a, bs[0], us)[i] == item;
      assert us[i] in us && bs[0] in bs;
    } else {
      UnwindSources(a, bs[1..], us, item);
      var b, u :| b in bs[1..] && u in us && item == Project(a, b, u);
      assert b in bs;
    }
  }

  // ---------------------------------------------------------------------
  // $sort + $skip + $limit
  // ---------------------------------------------------------------------

  function TimestampKey(item: FeedItem): int { item.timestamp }

  /** `$sort: { timestamp: -1 }` (ties keep their joined order). */
  function Newest(items: seq<FeedItem>): (r: seq<FeedItem>)
    ensures forall i, j :: 0 <= i < j < |r| ==> r[i].timestamp >= r[j].timestamp
    ensures multiset(r) == multiset(items)
  {
    var r := SortDesc(items, TimestampKey);
    assert forall i, j :: 0 <= i < j < |r| ==> TimestampKey(r[i]) >= TimestampKey(r[j]);
    r
  }

  /**
    The errors MongoDB raises for a `$skip` it cannot use: a negative one, and
    one that does not fit a signed 64-bit integer.
   */
  datatype FeedError = NegativeSkip(skip: int) | SkipOutOfRange(skip: int)

  /** The largest `$skip` MongoDB accepts, 2^63 - 1. */
  const MaxSkip := 0x7FFF_FFFF_FFFF_FFFF

  /** The largest page whose skip `5 * (page - 1)` is at most `MaxSkip`. */
  const MaxPage := 1844674407370955162

  datatype FeedResponse = Feed(items: seq<FeedItem>) | ServerError(error: FeedError)

  /** `$skip` then `$limit` for page `n >= 1`: the slice `[5(n-1), 5n)` of the sorted list, clipped. */
  function PageOf(sorted: seq<FeedItem>, n: int): (r: seq<FeedItem>)
    requires n >= 1
    ensures |r| <= PageSize
    ensures r == sorted[Min(PageSize * (n - 1), |sorted|)..Min(PageSize * n, |sorted|)]
    ensures forall x :: x in r ==> x in sorted
    ensures (forall i, j :: 0 <= i < j < |sorted| ==> sorted[i].timestamp >= sorted[j].timestamp)
            ==> forall i, j :: 0 <= i < j < |r| ==> r[i].timestamp >= r[j].timestamp
  {
    var skip := Skip(n);
    assert skip + PageSize == PageSize * n;
    Window(sorted, skip, PageSize)
  }

  /** Every row of a page is one of the joined rows. */
  lemma PageRowsJoined(joined: seq<FeedItem>, n: int)
    requires n >= 1
    ensures forall x :: x in PageOf(Newest(joined), n) ==> x in joined
  {
    var sorted := Newest(joined);
    assert forall x :: x in sorted ==> x in multiset(joined);
  }

  /** The whole handler: page number, join, sort, skip and limit. */
  function RecentActivity(query: Option<string>, acts: seq<Activity>, books: seq<BookDoc>,
                          users: seq<UserDoc>): (r: FeedResponse)
    ensures r.ServerError? <==> PageNumber(query) < 0 || PageNumber(query) > MaxPage
    ensures r.ServerError? ==> r.error.skip == Skip(PageNumber(query))
    ensures r.ServerError? ==> (r.error.NegativeSkip? <==> PageNumber(query) < 0)
    ensures r.Feed? ==> |r.items| <= PageSize
    ensures r.Feed? ==> forall i, j :: 0 <= i < j < |r.items| ==> r.items[i].timestamp >= r.items[j].timestamp
    ensures r.Feed? ==> forall x :: x in r.items ==> x in Joined(acts, books, users)
    ensures r.Feed? ==>
      var sorted := Newest(Joined(acts, books, users));
      var n := PageNumber(query);
      r.items == sorted[Min(PageSize * (n - 1), |sorted|)..Min(PageSize * n, |sorted|)]
  {
    var page := PageNumber(query);
    match SkipCheck(page)
    case Some(e) => ServerError(e)
    case None => Feed(PageFeed(acts, books, users, page))
  }

  /** The error `$skip` raises for a page's skip, if any. */
  function SkipCheck(page: int): (e: Option<FeedError>)
    ensures e.None? <==> 1 <= page <= MaxPage
    ensures e.Some? ==> e.value.skip == Skip(page) && (e.value.NegativeSkip? <==> page < 1)
  {
    var skip := Skip(page);
    if skip < 0 then Some(NegativeSkip(skip))
    else if skip > MaxSkip then Some(SkipOutOfRange(skip))
    else None
  }

  /** The rows of page `page` of the sorted join. */
  function PageFeed(acts: seq<Activity>, books: seq<BookDoc>, users: seq<UserDoc>, page: int): (items: seq<FeedItem>)
    requires page >= 1
    ensures |items| <= PageSize
    ensures forall i, j :: 0 <= i < j < |items| ==> items[i].timestamp >= items[j].timestamp
    ensures forall x :: x in items ==> x in Joined(acts, books, users)
    ensures var sorted := Newest(Joined(acts, books, users));
      items == sorted[Min(PageSize * (page - 1), |sorted|)..Min(PageSize * page, |sorted|)]
  {
    var joined := Joined(acts, books, users);
    PageRowsJoined(joined, page);
    PageOf(Newest(joined), page)
  }

  /** Pages `1 .. n` of a sorted list, concatenated. */
  function FirstPages(sorted: seq<FeedItem>, n: nat): seq<FeedItem> {
    if n == 0 then [] else FirstPages(sorted, n - 1) + PageOf(sorted, n)
  }

  /** Consecutive pages tile the sorted list: pages `1 .. n` together are its first `5n` items. */
  lemma {:induction false} PagesTile(sorted: seq<FeedItem>, n: nat)
    ensures FirstPages(sorted, n) == sorted[..Min(PageSize * n, |sorted|)]
  {
    if n > 0 {
      PagesTile(sorted, n - 1);
      var lo := Min(PageSize * (n - 1), |sorted|);
      var hi := Min(PageSize * n, |sorted|);
      assert sorted[..hi] == sorted[..lo] + sorted[lo..hi];
    }
  }
}

=== FILE: addbook.dfy ===
/**
  The add-book form (`src/addbook.jsx`): which chosen files the form keeps,
  and the multipart body `handleSubmit` builds from the form.
 */
module AddBook {
  import opened Common

  /** A file picked in a file input: its name and its MIME type (`file.type`). */
  datatype File = File(name: string, mime: string)

  /** The form's state. */
  datatype Form = Form(
    bookName: string,
    author: string,
    rating: string,
    coverLink: string,
    coverFile: Option<File>,
    pdfFile: Option<File>,
    category: string)

  /** `e.target.files[0]`. */
  function FirstFile(files: seq<File>): Option<File> {
    if |files| == 0 then None else Some(files[0])
  }

  predicate IsImage(f: File) { "image/" <= f.mime }

  predicate IsPdf(f: File) { f.mime == "application/pdf" }

  /** `handleCoverFileChange`: an image is kept and clears the cover link; anything else is ignored. */
  function CoverFileChange(form: Form, files: seq<File>): (r: Form)
    ensures |files| > 0 && IsImage(files[0]) ==> r == form.(coverFile := Some(files[0]), coverLink := "")
    ensures !(|files| > 0 && IsImage(files[0])) ==> r == form
  {
    match FirstFile(files)
    case Some(f) => if IsImage(f) then form.(coverFile := Some(f), coverLink := "") else form
    case None => form
  }

  /** `handlePdfFileChange`: only `application/pdf` is kept. */
  function PdfFileChange(form: Form, files: seq<File>): (r: Form)
    ensures |files| > 0 && IsPdf(files[0]) ==> r == form.(pdfFile := Some(files[0]))
    ensures !(|files| > 0 && IsPdf(files[0])) ==> r == form
  {
    match FirstFile(files)
    case Some(f) => if IsPdf(f) then form.(pdfFile := Some(f)) else form
    case None => form
  }

  /** A file chosen in the cover input is always an image. */
  lemma KeptCoverIsImage(form: Form, files: seq<File>)
    requires form.coverFile.None? || IsImage(form.coverFile.value)
    ensures CoverFileChange(form, files).coverFile.None? || IsImage(CoverFileChange(form, files).coverFile.value)
  {
  }

  /** A file chosen in the PDF input is always a PDF. */
  lemma KeptPdfIsPdf(form: Form, files: seq<File>)
    requires form.pdfFile.None? || IsPdf(form.pdfFile.value)
    ensures PdfFileChange(form, files).pdfFile.None? || IsPdf(PdfFileChange(form, files).pdfFile.value)
  {
  }

  /** One value of the multipart body. */
  datatype Value = Text(text: string) | Upload(file: File) | UserJson(json: string)

  datatype Part = Part(name: string, value: Value)

  /** The value of the first part called `name`. */
  function Lookup(parts: seq<Part>, name: string): Option<Value> {
    if |parts| == 0 then None
    else if parts[0].name == name then Some(parts[0].value)
    else Lookup(parts[1..], name)
  }

  /** Parts that do not carry `name` in front of others do not change what Lookup finds. */
  lemma {:induction false} LookupSkips(a: seq<Part>, b: seq<Part>, name: string)
    requires forall i :: 0 <= i < |a| ==> a[i].name != name
    ensures Lookup(a + b, name) == Lookup(b, name)
  {
    if |a| == 0 {
      assert a + b == b;
    } else {
      assert (a + b)[0] == a[0] && a[0].name != name;
      assert (a + b)[1..] == a[1..] + b;
      LookupSkips(a[1..], b, name);
    }
  }

  /** Lookup finds the first part with the name. */
  lemma {:induction false} LookupAt(parts: seq<Part>, k: nat, name: string)
    requires k < |parts| && parts[k].name == name
    requires forall i :: 0 <= i < k ==> parts[i].name != name
    ensures Lookup(parts, name) == Some(parts[k].value)
  {
    if k > 0 {
      LookupAt(parts[1..], k - 1, name);
    }
  }

  /** What a submit does: send the user to the login page, or post the body. */
  datatype SubmitOutcome = RedirectToLogin | Post(parts: seq<Part>)

  /** The book details, always sent, in this order. */
  function DetailParts(form: Form): seq<Part> {
    [ Part("bookName", Text(form.bookName)),
      Part("author", Text(form.author)),
      Part("rating", Text(if form.rating == "" then "0" else form.rating)),
      Part("available", Text("5")),
      Part("total", Text("5")),
      Part("category", Text(form.category)) ]
  }

  /** The cover: the uploaded file if one is set, else the link if one was typed. */
  function CoverParts(form: Form): seq<Part> {
    if form.coverFile.Some? then [Part("cover", Upload(form.coverFile.value))]
    else if form.coverLink != "" then [Part("coverLink", Text(form.coverLink))]
    else []
  }

  function PdfParts(form: Form): seq<Part> {
    if form.pdfFile.Some? then [Part("pdf", Upload(form.pdfFile.value))] else []
  }

  /**
    `handleSubmit`, with the stored user's JSON text as a parameter (`None`
    when no user is stored).
   */
  function Submit(form: Form, storedUser: Option<string>): (r: SubmitOutcome)
    ensures r.RedirectToLogin? <==> storedUser.None?
  {
    match storedUser
    case None => RedirectToLogin
    case Some(user) =>
      Post(DetailParts(form) + CoverParts(form) + PdfParts(form) + [Part("user", UserJson(user))])
  }

  /** The body's fields: the form values, the rating default and the fixed copy counts. */
  lemma SubmitFields(form: Form, user: string)
    ensures Submit(form, Some(user)).Post?
    ensures var parts := Submit(form, Some(user)).parts;
      && Lookup(parts, "bookName") == Some(Text(form.bookName))
      && Lookup(parts, "author") == Some(Text(form.author))
      && Lookup(parts, "rating") == Some(Text(if form.rating == "" then "0" else form.rating))
      && Lookup(parts, "available") == Some(Text("5"))
      && Lookup(parts, "total") == Some(Text("5"))
      && Lookup(parts, "category") == Some(Text(form.category))
      && Lookup(parts, "user") == Some(UserJson(user))
  {
    var d := DetailParts(form);
    var tail := CoverParts(form) + PdfParts(form) + [Part("user", UserJson(user))];
    var parts := Submit(form, Some(user)).parts;
    assert parts == d + tail;
    assert forall i :: 0 <= i < 6 ==> parts[i] == d[i];
    LookupAt(parts, 0, "bookName");
    LookupAt(parts, 1, "author");
    LookupAt(parts, 2, "rating");
    LookupAt(parts, 3, "available");
    LookupAt(parts, 4, "total");
    LookupAt(parts, 5, "category");
    var front := d + CoverParts(form) + PdfParts(form);
    assert parts == front + [Part("user", UserJson(user))];
    LookupSkips(front, [Part("user", UserJson(user))], "user");
  }

  /**
    The uploaded cover wins: the body carries `cover` exactly when a file is
    set, `coverLink` only when no file is set and a link was typed, never
    both; `pdf` exactly when a PDF was chosen.
   */
  lemma SubmitCoverPrecedence(form: Form, user: string)
    ensures var parts := Submit(form, Some(user)).parts;
      && (Lookup(parts, "cover").Some? <==> form.coverFile.Some?)
      && (Lookup(parts, "coverLink").Some? <==> form.coverFile.None? && form.coverLink != "")
      && !(Lookup(parts, "cover").Some? && Lookup(parts, "coverLink").Some?)
      && (Lookup(parts, "pdf").Some? <==> form.pdfFile.Some?)
      && (form.coverFile.Some? ==> Lookup(parts, "cover") == Some(Upload(form.coverFile.value)))
      && (form.pdfFile.Some? ==> Lookup(parts, "pdf") == Some(Upload(form.pdfFile.value)))
      && (form.coverFile.None? && form.coverLink != "" ==> Lookup(parts, "coverLink") == Some(Text(form.coverLink)))
  {
    var d := DetailParts(form);
    var c := CoverParts(form);
    var p := PdfParts(form);
    var u := [Part("user", UserJson(user))];
    var parts := Submit(form, Some(user)).parts;
    assert parts == d + (c + (p + u));
    LookupSkips(d, c + (p + u), "cover");
    LookupSkips(d, c + (p + u), "coverLink");
    LookupSkips(d, c + (p + u), "pdf");
    LookupSkips(p, u, "cover");
    LookupSkips(p, u, "coverLink");
    LookupSkips(c, p + u, "pdf");
    assert Lookup(u, "pdf").None? && Lookup(u, "cover").None? && Lookup(u, "coverLink").None?;
    if form.coverFile.None? {
      LookupSkips(c, p + u, "cover");
    }
    if form.coverFile.Some? || form.coverLink == "" {
      LookupSkips(c, p + u, "coverLink");
    }
  }

  /** Once an image is chosen, a later submit uploads it and sends no link, whatever link is typed after. */
  lemma ChosenImageWins(form: Form, image: File, rest: seq<File>, laterLink: string, user: string)
    requires IsImage(image)
    ensures var f := CoverFileChange(form, [image] + rest).(coverLink := laterLink);
      var parts := Submit(f, Some(user)).parts;
      Lookup(parts, "cover") == Some(Upload(image)) && Lookup(parts, "coverLink").None?
  {
    var f := CoverFileChange(form, [image] + rest).(coverLink := laterLink);
    SubmitCoverPrecedence(f, user);
  }
}

=== FILE: catalog.dfy ===
/**
  The catalog page (`src/books.jsx`): the search and category filter, the
  split into issued and available books, the "popular authors" panel, the
  category toggle, the action a book card offers, and the local state
  updates that follow a return or a delete.
 */
module Catalog {
  import opened Common

  /** A catalog entry as the page receives it from `GET /library`. */
  datatype Book = Book(
    id: string,
    bookName: string,
    author: string,
    category: string,
    available: int,
    issued: int,
    pdf: Option<string>)

  /**
    One element of `user.issuedBooks`: the referenced book id (`bookID`) and
    the entry's own document id (`_id`); either may be missing.
   */
  datatype IssuedEntry = IssuedEntry(bookID: Option<string>, entryId: Option<string>)

  /** The logged-in user as the page holds it; `issuedBooks` may be missing. */
  datatype User = User(id: string, isAdmin: bool, issuedBooks: Option<seq<IssuedEntry>>)

  // ---------------------------------------------------------------------
  // Search and category filter
  // ---------------------------------------------------------------------

  /** The search term occurs, ignoring ASCII case, in the title or the author. */
  predicate MatchesSearch(b: Book, term: string) {
    Includes(Lower(b.bookName), Lower(term)) || Includes(Lower(b.author), Lower(term))
  }

  /** No category is selected (`!selectedCategory`), or the book is in it. */
  predicate MatchesCategory(b: Book, selected: Option<string>) {
    !Truthy(selected) || b.category == selected.value
  }

  predicate Shown(b: Book, term: string, selected: Option<string>) {
    MatchesSearch(b, term) && MatchesCategory(b, selected)
  }

  /** `filteredBooks`: the books the grid shows, in catalog order. */
  function FilteredBooks(books: seq<Book>, term: string, selected: Option<string>): (r: seq<Book>)
    ensures forall b :: b in r <==>
      b in books
      && (Includes(Lower(b.bookName), Lower(term)) || Includes(Lower(b.author), Lower(term)))
      && (!Truthy(selected) || b.category == selected.value)
    ensures forall b :: multiset(r)[b] == if Shown(b, term, selected) then multiset(books)[b] else 0
    ensures IsSubsequence(r, books)
  {
    Filter(books, (b: Book) => Shown(b, term, selected))
  }

  /** With an empty search term and no category selected, every book is shown, in order. */
  lemma EmptySearchShowsAll(books: seq<Book>, selected: Option<string>)
    requires !Truthy(selected)
    ensures FilteredBooks(books, "", selected) == books
  {
    forall i | 0 <= i < |books| ensures Shown(books[i], "", selected) {
      IncludesEmpty(Lower(books[i].bookName));
    }
    FilterAll(books, (b: Book) => Shown(b, "", selected));
  }

  /** The search ignores case: searching for the lower-cased term shows the same books. */
  lemma SearchIgnoresCase(books: seq<Book>, term: string, selected: Option<string>)
    ensures FilteredBooks(books, Lower(term), selected) == FilteredBooks(books, term, selected)
  {
    LowerIdempotent(term);
    FilterCongruent(books, (b: Book) => Shown(b, Lower(term), selected), (b: Book) => Shown(b, term, selected));
  }

  // ---------------------------------------------------------------------
  // Issued / available split
  // ---------------------------------------------------------------------

  /** `user.issuedBooks || []`. */
  function IssuedList(u: User): seq<IssuedEntry> {
    u.issuedBooks.GetOr([])
  }

  /** Some issued entry's `bookID` is the book's id (`issuedBooks.some(...)`). */
  predicate IsIssued(u: User, bookId: string) {
    exists i :: 0 <= i < |IssuedList(u)| && IssuedList(u)[i].bookID == Some(bookId)
  }

  /** `availableBooks`: the shown books the user does not hold, in order. */
  function AvailableBooks(books: seq<Book>, term: string, selected: Option<string>, u: User): (r: seq<Book>)
    ensures forall b :: b in r <==> b in FilteredBooks(books, term, selected) && !IsIssued(u, b.id)
    ensures forall b :: b in r <==>
      b in books && Shown(b, term, selected)
      && forall e :: e in IssuedList(u) ==> e.bookID != Some(b.id)
    ensures forall b :: (multiset(r)[b]
      == if IsIssued(u, b.id) then 0 else multiset(FilteredBooks(books, term, selected))[b])
    ensures IsSubsequence(r, FilteredBooks(books, term, selected))
    ensures u.issuedBooks.None? ==> r == FilteredBooks(books, term, selected)
  {
    var shown := FilteredBooks(books, term, selected);
    if u.issuedBooks.None? then
      FilterAll(shown, (b: Book) => !IsIssued(u, b.id));
      Filter(shown, (b: Book) => !IsIssued(u, b.id))
    else
      Filter(shown, (b: Book) => !IsIssued(u, b.id))
  }

  // ---------------------------------------------------------------------
  // Popular authors
  // ---------------------------------------------------------------------

  /**
    The members every plain object inherits from `Object.prototype`. The
    reducer's accumulator starts as `{}`, so `acc[name]` is already truthy
    for these names and the reducer never creates an entry for them.
   */
  const InheritedNames: set<string> := {
    "constructor", "hasOwnProperty", "isPrototypeOf", "propertyIsEnumerable",
    "toLocaleString", "toString", "valueOf", "__proto__",
    "__defineGetter__", "__defineSetter__", "__lookupGetter__", "__lookupSetter__"}

  /** An author the reducer gives an entry of its own: truthy, and not an inherited member name. */
  predicate Tallied(a: string) {
    a != "" && a !in InheritedNames
  }

  /** One entry of the author statistics: a name and how many books carry it. */
  datatype AuthorStat = AuthorStat(name: string, books: nat)

  /** Reference count: the number of books whose author is exactly `a`. */
  function CountAuthor(books: seq<Book>, a: string): nat {
    if |books| == 0 then 0
    else CountAuthor(books[..|books| - 1], a) + (if books[|books| - 1].author == a then 1 else 0)
  }

  predicate Named(acc: seq<AuthorStat>, a: string) {
    exists i :: 0 <= i < |acc| && acc[i].name == a
  }

  /** No two entries of the statistics share a name. */
  predicate DistinctNames(acc: seq<AuthorStat>) {
    forall i, j :: 0 <= i < j < |acc| ==> acc[i].name != acc[j].name
  }

  /** Index of the first entry named `a`; `|acc|` when there is none. */
  function IndexOfName(acc: seq<AuthorStat>, a: string): (k: nat)
    ensures k <= |acc|
    ensures forall i :: 0 <= i < k ==> acc[i].name != a
    ensures k < |acc| ==> acc[k].name == a
  {
    if |acc| == 0 then 0
    else if acc[0].name == a then 0
    else 1 + IndexOfName(acc[1..], a)
  }

  /**
    The reducer step for one book by author `a`: bump `a`'s entry, or append
    a fresh entry with one book (insertion order is kept).
   */
  function AddAuthor(acc: seq<AuthorStat>, a: string): (r: seq<AuthorStat>)
    requires DistinctNames(acc)
    ensures DistinctNames(r)
    ensures |r| == if Named(acc, a) then |acc| else |acc| + 1
    ensures forall i :: 0 <= i < |acc| ==>
      r[i].name == acc[i].name && r[i].books == acc[i].books + (if acc[i].name == a then 1 else 0)
    ensures !Named(acc, a) ==> r[|acc|] == AuthorStat(a, 1)
  {
    var k := IndexOfName(acc, a);
    if k < |acc| then
      acc[k := acc[k].(books := acc[k].books + 1)]
    else
      acc + [AuthorStat(a, 1)]
  }

  /** `r` is a correct author tally of `books`. */
  ghost predicate IsTallyOf(r: seq<AuthorStat>, books: seq<Book>) {
    && (forall i :: 0 <= i < |r| ==>
          Tallied(r[i].name) && r[i].books == CountAuthor(books, r[i].name) && r[i].books >= 1)
    && DistinctNames(r)
    && (forall a :: Tallied(a) && CountAuthor(books, a) > 0 ==> Named(r, a))
  }

  /** One reducer step turns a tally of `books` into a tally of `books + [b]`. */
  lemma AddAuthorStep(acc: seq<AuthorStat>, books: seq<Book>, b: Book)
    requires IsTallyOf(acc, books) && Tallied(b.author)
    ensures IsTallyOf(AddAuthor(acc, b.author), books + [b])
  {
    var all := books + [b];
    assert all[..|all| - 1] == books;
    var r := AddAuthor(acc, b.author);
    forall a | Tallied(a) && CountAuthor(all, a) > 0 ensures Named(r, a) {
      if a == b.author {
        if Named(acc, a) {
          var i :| 0 <= i < |acc| && acc[i].name == a;
          assert r[i].name == a;
        } else {
          assert r[|acc|].name == a;
        }
      } else {
        assert CountAuthor(books, a) > 0;
        var i :| 0 <= i < |acc| && acc[i].name == a;
        assert r[i].name == a;
      }
    }
    forall i | 0 <= i < |r|
      ensures Tallied(r[i].name) && r[i].books == CountAuthor(all, r[i].name) && r[i].books >= 1
    {
      if i < |acc| {
        assert r[i].books == acc[i].books + (if acc[i].name == b.author then 1 else 0);
      } else {
        assert !Named(acc, b.author);
        assert CountAuthor(books, b.author) == 0;
      }
    }
  }

  /** A book whose author is empty or an inherited member name leaves the tally as it is. */
  lemma SkipUntalliedStep(acc: seq<AuthorStat>, books: seq<Book>, b: Book)
    requires IsTallyOf(acc, books) && !Tallied(b.author)
    ensures IsTallyOf(acc, books + [b])
  {
    var all := books + [b];
    assert all[..|all| - 1] == books;
  }

  /**
    The `authorStats` reduce: one entry per non-empty author that is not an
    inherited member name, in first-seen order.
   */
  function Tally(books: seq<Book>): (r: seq<AuthorStat>)
    ensures forall i :: 0 <= i < |r| ==>
      r[i].name != "" && r[i].name !in InheritedNames
      && r[i].books == CountAuthor(books, r[i].name) && r[i].books >= 1
    ensures forall i, j :: 0 <= i < j < |r| ==> r[i].name != r[j].name
    ensures forall a :: a != "" && a !in InheritedNames && CountAuthor(books, a) > 0 ==> Named(r, a)
  {
    if |books| == 0 then []
    else
      var prefix := books[..|books| - 1];
      var b := books[|books| - 1];
      assert books == prefix + [b];
      var acc := Tally(prefix);
      if !Tallied(b.author) then
        SkipUntalliedStep(acc, prefix, b);
        acc
      else
        AddAuthorStep(acc, prefix, b);
        AddAuthor(acc, b.author)
  }

  function StatKey(s: AuthorStat): int { s.books }

  /**
    In a non-increasing sequence, an element found at or past the cut is
    bounded by every element kept before it.
   */
  lemma TopAuthorsCut(tally: seq<AuthorStat>, sorted: seq<AuthorStat>, r: seq<AuthorStat>, k: nat)
    requires SortedDesc(sorted, StatKey) && multiset(sorted) == multiset(tally)
    requires r <= sorted && k < |tally|
    requires forall i :: 0 <= i < |r| ==> r[i] != tally[k]
    ensures forall i :: 0 <= i < |r| ==> r[i].books >= tally[k].books
  {
    assert tally[k] in multiset(sorted);
    var j :| 0 <= j < |sorted| && sorted[j] == tally[k];
    assert forall i :: 0 <= i < |r| ==> r[i] == sorted[i];
    assert j >= |r|;
    forall i | 0 <= i < |r| ensures r[i].books >= tally[k].books {
      assert StatKey(sorted[i]) >= StatKey(sorted[j]);
    }
  }

  /** Every kept entry comes from the tally, so it carries a correct count. */
  lemma TopAuthorsSound(books: seq<Book>, sorted: seq<AuthorStat>, r: seq<AuthorStat>)
    requires multiset(sorted) == multiset(Tally(books)) && r <= sorted
    ensures forall i :: 0 <= i < |r| ==>
      Tallied(r[i].name) && r[i].books == CountAuthor(books, r[i].name) && r[i].books >= 1
  {
    var tally := Tally(books);
    forall i | 0 <= i < |r|
      ensures Tallied(r[i].name) && r[i].books == CountAuthor(books, r[i].name) && r[i].books >= 1
    {
      assert r[i] == sorted[i];
      assert sorted[i] in multiset(tally);
      var k :| 0 <= k < |tally| && tally[k] == r[i];
    }
  }

  /** Every tallied author missing from a sorted prefix has no more books than any entry kept. */
  lemma TopAuthorsComplete(books: seq<Book>, sorted: seq<AuthorStat>, r: seq<AuthorStat>)
    requires SortedDesc(sorted, StatKey) && multiset(sorted) == multiset(Tally(books)) && r <= sorted
    ensures forall a :: Tallied(a) && CountAuthor(books, a) > 0 && !Named(r, a) ==>
      forall i :: 0 <= i < |r| ==> r[i].books >= CountAuthor(books, a)
  {
    var tally := Tally(books);
    forall a | Tallied(a) && CountAuthor(books, a) > 0 && !Named(r, a)
      ensures forall i :: 0 <= i < |r| ==> r[i].books >= CountAuthor(books, a)
    {
      var k :| 0 <= k < |tally| && tally[k].name == a;
      TopAuthorsCut(tally, sorted, r, k);
    }
  }

  /** A prefix of a permutation of entries with distinct names still has distinct names. */
  lemma DistinctNamesPermutation(tally: seq<AuthorStat>, sorted: seq<AuthorStat>, r: seq<AuthorStat>)
    requires multiset(sorted) == multiset(tally) && DistinctNames(tally) && r <= sorted
    ensures DistinctNames(r)
  {
    NoDuplicatesPermutation(sorted, tally);
    forall i, j | 0 <= i < j < |sorted| ensures sorted[i].name != sorted[j].name {
      assert sorted[i] in multiset(tally) && sorted[j] in multiset(tally);
      var p :| 0 <= p < |tally| && tally[p] == sorted[i];
      var q :| 0 <= q < |tally| && tally[q] == sorted[j];
      assert p != q;
    }
    assert forall i :: 0 <= i < |r| ==> r[i] == sorted[i];
  }

  /** The "popular authors" panel: the tally sorted by book count, descending, cut to four. */
  function TopAuthors(books: seq<Book>): (r: seq<AuthorStat>)
    ensures |r| == Min(4, |Tally(books)|)
    ensures forall i, j :: 0 <= i < j < |r| ==> r[i].books >= r[j].books
    ensures forall i, j :: 0 <= i < j < |r| ==> r[i].name != r[j].name
    ensures forall i :: 0 <= i < |r| ==>
      Tallied(r[i].name) && r[i].books == CountAuthor(books, r[i].name) && r[i].books >= 1
    ensures forall a :: Tallied(a) && CountAuthor(books, a) > 0 && !Named(r, a) ==>
      forall i :: 0 <= i < |r| ==> r[i].books >= CountAuthor(books, a)
  {
    var tally := Tally(books);
    var sorted := SortDesc(tally, StatKey);
    var r := Take(sorted, 4);
    TopAuthorsSound(books, sorted, r);
    DistinctNamesPermutation(tally, sorted, r);
    assert forall i, j :: 0 <= i < j < |r| ==> r[i].books >= r[j].books by {
      forall i, j | 0 <= i < j < |r| ensures r[i].books >= r[j].books {
        assert StatKey(sorted[i]) >= StatKey(sorted[j]);
      }
    }
    TopAuthorsComplete(books, sorted, r);
    r
  }

  // ---------------------------------------------------------------------
  // Category toggle
  // ---------------------------------------------------------------------

  /** `handleCategoryClick`: clicking the selected category clears it, any other selects it. */
  function ToggleCategory(selected: Option<string>, clicked: string): (r: Option<string>)
    ensures r.None? <==> selected == Some(clicked)
    ensures r.Some? ==> r.value == clicked
  {
    if selected == Some(clicked) then None else Some(clicked)
  }

  /**
    Clicking the same category twice restores the earlier selection exactly
    when nothing, or that very category, was selected before.
   */
  lemma ToggleTwice(selected: Option<string>, clicked: string)
    ensures ToggleCategory(ToggleCategory(selected, clicked), clicked) == selected
        <==> (selected.None? || selected == Some(clicked))
  {
  }

  // ---------------------------------------------------------------------
  // Book card
  // ---------------------------------------------------------------------

  datatype CardAction = ReturnButton | OutOfStock | RequestButton

  /** The reading control: open the PDF, a disabled "Issue to Read", or nothing. */
  datatype ReadControl = ReadButton(pdfUrl: string) | IssueToRead | NoReadControl

  datatype Card = Card(action: CardAction, read: ReadControl, deleteButton: bool)

  /** `BookCard` as rendered in the grid for user `u`. */
  function BookCard(b: Book, u: User): (c: Card)
    ensures c.action == ReturnButton <==> IsIssued(u, b.id)
    ensures c.action == OutOfStock <==> !IsIssued(u, b.id) && b.available <= 0
    ensures c.action == RequestButton <==> !IsIssued(u, b.id) && b.available > 0
    ensures c.read.ReadButton? <==> Truthy(b.pdf) && IsIssued(u, b.id)
    ensures c.read.IssueToRead? <==> Truthy(b.pdf) && !IsIssued(u, b.id)
    ensures c.read.ReadButton? ==> c.read.pdfUrl == ServerOrigin + b.pdf.value
    ensures c.deleteButton <==> u.isAdmin
  {
    var issued := IsIssued(u, b.id);
    var pdfUrl := if Truthy(b.pdf) then Some(ServerOrigin + b.pdf.value) else None;
    var action := if issued then ReturnButton else if b.available <= 0 then OutOfStock else RequestButton;
    var read := if pdfUrl.Some? && issued then ReadButton(pdfUrl.value)
                else if pdfUrl.Some? then IssueToRead
                else NoReadControl;
    Card(action, read, u.isAdmin)
  }

  /**
    Among the shown books, a card offers Return exactly when the book is
    missing from the available list: the two views partition the grid.
   */
  lemma ReturnOfferedIffNotAvailable(books: seq<Book>, term: string, selected: Option<string>, u: User, b: Book)
    requires b in FilteredBooks(books, term, selected)
    ensures BookCard(b, u).action == ReturnButton <==> b !in AvailableBooks(books, term, selected, u)
  {
  }

  // ---------------------------------------------------------------------
  // Return
  // ---------------------------------------------------------------------

  /** The body of `POST /library/returnBook`. */
  datatype ReturnRequest = ReturnRequest(userID: string, bookID: string, returnBookName: string)

  /** A server reply: `response.ok` and the `error` field of its JSON body. */
  datatype Reply = Reply(ok: bool, error: Option<string>)

  /** The page state a return touches. */
  datatype Library = Library(books: seq<Book>, user: User)

  /** A return either stops before any request, or sends one and applies its reply. */
  datatype ReturnOutcome = Refused(message: string) | Sent(request: ReturnRequest, result: Result<Library>)

  const NotIssuedMessage := "Book not found in your issued books"
  const ReturnFailedMessage := "Failed to return book"
  /** The TypeError a missing `issuedBooks` list raises at `.find` (V8's wording). */
  const NoIssuedListMessage := "Cannot read properties of undefined (reading 'find')"

  predicate EntryMatches(e: IssuedEntry, bookID: string) {
    e.bookID == Some(bookID) || e.entryId == Some(bookID)
  }

  /** Index of the first entry matching by `bookID` or by `_id`; `|issued|` when none does. */
  function FirstMatch(issued: seq<IssuedEntry>, bookID: string): (k: nat)
    ensures k <= |issued|
    ensures forall i :: 0 <= i < k ==> !EntryMatches(issued[i], bookID)
    ensures k < |issued| ==> EntryMatches(issued[k], bookID)
  {
    if |issued| == 0 then 0
    else if EntryMatches(issued[0], bookID) then 0
    else 1 + FirstMatch(issued[1..], bookID)
  }

  /** `issuedBooks.find(...)`: the first entry matching by `bookID` or by `_id`. */
  function FindIssued(issued: seq<IssuedEntry>, bookID: string): (r: Option<IssuedEntry>)
    ensures r.None? <==> forall i :: 0 <= i < |issued| ==> !EntryMatches(issued[i], bookID)
    ensures r.Some? ==> exists k :: (0 <= k < |issued| && issued[k] == r.value
      && EntryMatches(issued[k], bookID)
      && forall i :: 0 <= i < k ==> !EntryMatches(issued[i], bookID))
  {
    var k := FirstMatch(issued, bookID);
    if k < |issued| then Some(issued[k]) else None
  }

  /** The local copy-count update after a confirmed return. */
  function MarkReturned(books: seq<Book>, bookID: string): (r: seq<Book>)
    ensures |r| == |books|
    ensures forall i :: 0 <= i < |books| && books[i].id == bookID ==>
      r[i].available == books[i].available + 1 && r[i].issued == books[i].issued - 1
    ensures forall i :: 0 <= i < |books| ==>
      r[i].available + r[i].issued == books[i].available + books[i].issued
    ensures forall i :: 0 <= i < |books| ==>
      r[i].(available := books[i].available, issued := books[i].issued) == books[i]
    ensures forall i :: 0 <= i < |books| && books[i].id != bookID ==> r[i] == books[i]
  {
    seq(|books|, i requires 0 <= i < |books| =>
      if books[i].id == bookID
      then books[i].(available := books[i].available + 1, issued := books[i].issued - 1)
      else books[i])
  }

  /** `book.bookID || book._id`: the id the local removal compares against. */
  function EntryKey(e: IssuedEntry): Option<string> {
    if Truthy(e.bookID) then e.bookID else e.entryId
  }

  /** The local issued-list update after a confirmed return. */
  function RemoveReturned(issued: seq<IssuedEntry>, bookID: string): (r: seq<IssuedEntry>)
    ensures forall e :: e in r <==> e in issued && EntryKey(e) != Some(bookID)
    ensures forall i :: 0 <= i < |r| ==> EntryKey(r[i]) != Some(bookID)
    ensures forall e :: multiset(r)[e] == if EntryKey(e) == Some(bookID) then 0 else multiset(issued)[e]
    ensures IsSubsequence(r, issued)
  {
    Filter(issued, (e: IssuedEntry) => EntryKey(e) != Some(bookID))
  }

  /** `handleReturnBook`, with the server's reply as a parameter. */
  function ReturnBook(lib: Library, bookID: string, bookName: string, reply: Reply): (r: ReturnOutcome)
    ensures r.Refused? <==>
      lib.user.issuedBooks.None?
      || forall i :: 0 <= i < |IssuedList(lib.user)| ==> !EntryMatches(IssuedList(lib.user)[i], bookID)
    ensures r.Refused? && lib.user.issuedBooks.Some? ==> r.message == NotIssuedMessage
    ensures r.Sent? ==> (FindIssued(IssuedList(lib.user), bookID).Some?
      && r.request == ReturnRequest(lib.user.id,
           OrElse(FindIssued(IssuedList(lib.user), bookID).value.bookID, bookID), bookName))
    ensures r.Sent? && !reply.ok ==> r.result == Err(OrElse(reply.error, ReturnFailedMessage))
    ensures r.Sent? && reply.ok ==> (r.result.Ok?
      && r.result.value.books == MarkReturned(lib.books, bookID)
      && r.result.value.user == lib.user.(issuedBooks := Some(RemoveReturned(IssuedList(lib.user), bookID))))
  {
    match lib.user.issuedBooks
    case None => Refused(NoIssuedListMessage)
    case Some(issued) =>
      match FindIssued(issued, bookID)
      case None => Refused(NotIssuedMessage)
      case Some(e) =>
        assert IssuedList(lib.user) == issued;
        var request := ReturnRequest(lib.user.id, OrElse(e.bookID, bookID), bookName);
        if !reply.ok then Sent(request, Err(OrElse(reply.error, ReturnFailedMessage)))
        else
          Sent(request, Ok(Library(
            MarkReturned(lib.books, bookID),
            lib.user.(issuedBooks := Some(RemoveReturned(issued, bookID))))))
  }

  /** The sum of available and issued copies over the catalog. */
  function CopyTotal(books: seq<Book>): int {
    if |books| == 0 then 0
    else CopyTotal(books[..|books| - 1]) + books[|books| - 1].available + books[|books| - 1].issued
  }

  /** A return moves one copy per matching book from issued to available: the copy total is unchanged. */
  lemma {:induction false} ReturnKeepsCopyTotal(books: seq<Book>, bookID: string)
    ensures CopyTotal(MarkReturned(books, bookID)) == CopyTotal(books)
  {
    if |books| > 0 {
      var n := |books| - 1;
      assert MarkReturned(books, bookID)[..n] == MarkReturned(books[..n], bookID);
      ReturnKeepsCopyTotal(books[..n], bookID);
    }
  }

  /**
    After a confirmed return of a book held under its `bookID`, the card for
    that book no longer offers Return.
   */
  lemma ReturnedBookNoLongerIssued(lib: Library, bookID: string, bookName: string, reply: Reply)
    requires bookID != "" && reply.ok
    requires ReturnBook(lib, bookID, bookName, reply).Sent?
    ensures !IsIssued(ReturnBook(lib, bookID, bookName, reply).result.value.user, bookID)
  {
    var u := ReturnBook(lib, bookID, bookName, reply).result.value.user;
    forall i | 0 <= i < |IssuedList(u)| ensures IssuedList(u)[i].bookID != Some(bookID) {
      assert EntryKey(IssuedList(u)[i]) != Some(bookID);
    }
  }

  // ---------------------------------------------------------------------
  // Delete
  // ---------------------------------------------------------------------

  const AdminOnlyMessage := "Only admins can delete books"
  const DeleteFailedMessage := "Failed to delete book"

  /** A delete either stops at the admin guard or sends the request and applies its reply. */
  datatype DeleteOutcome = NotAdmin(message: string) | DeleteSent(result: Result<seq<Book>>)

  /** `handleDeleteBook`, with the server's reply as a parameter. */
  function DeleteBook(books: seq<Book>, u: User, bookID: string, reply: Reply): (r: DeleteOutcome)
    ensures r.NotAdmin? <==> !u.isAdmin
    ensures r.NotAdmin? ==> r.message == AdminOnlyMessage
    ensures r.DeleteSent? && !reply.ok ==> r.result == Err(OrElse(reply.error, DeleteFailedMessage))
    ensures r.DeleteSent? && reply.ok ==> (r.result.Ok?
      && (forall b :: b in r.result.value <==> b in books && b.id != bookID)
      && (forall b :: multiset(r.result.value)[b] == if b.id == bookID then 0 else multiset(books)[b])
      && IsSubsequence(r.result.value, books))
  {
    if !u.isAdmin then NotAdmin(AdminOnlyMessage)
    else if !reply.ok then DeleteSent(Err(OrElse(reply.error, DeleteFailedMessage)))
    else DeleteSent(Ok(Filter(books, (b: Book) => b.id != bookID)))
  }

  /**
    After a confirmed delete the grid, under any search and category, shows
    what it showed before minus the deleted book, in the same order.
   */
  lemma DeleteOnlyHidesDeleted(books: seq<Book>, u: User, bookID: string, reply: Reply, term: string, selected: Option<string>)
    requires u.isAdmin && reply.ok
    ensures DeleteBook(books, u, bookID, reply).DeleteSent?
    ensures var after := DeleteBook(books, u, bookID, reply).result.value;
      FilteredBooks(after, term, selected)
        == Filter(FilteredBooks(books, term, selected), (b: Book) => b.id != bookID)
    ensures var after := DeleteBook(books, u, bookID, reply).result.value;
      forall b :: b in FilteredBooks(after, term, selected) ==> b.id != bookID
  {
    FilterCommute(books, (b: Book) => b.id != bookID, (b: Book) => Shown(b, term, selected));
  }
}

=== FILE: common.dfy ===
/**
  Shared vocabulary for the Overbooked client model: optional values and
  results, JavaScript-style string helpers restricted to ASCII, and the
  sequence operations (filter, stable sort, window) that the views and the
  activity feed are built from.
 */
module Common {

  /** A value that may be absent (`undefined`/`null` in the source). */
  datatype Option<+T> = None | Some(value: T) {
    function GetOr(default: T): T {
      match this
      case Some(v) => v
      case None => default
    }
  }

  /** The outcome of an operation that can fail with a user-visible message. */
  datatype Result<+T> = Ok(value: T) | Err(message: string)

  /** The API server every page talks to; relative upload paths are resolved against it. */
  const ServerOrigin := "http://localhost:5000"

  function Min(a: int, b: int): int { if a <= b then a else b }
  function Max(a: int, b: int): int { if a >= b then a else b }

  // ---------------------------------------------------------------------
  // Strings
  // ---------------------------------------------------------------------

  /** JavaScript truthiness of an optional string: present and non-empty. */
  predicate Truthy(s: Option<string>) {
    s.Some? && s.value != ""
  }

  /** `s || fallback` for an optional string. */
  function OrElse(s: Option<string>, fallback: string): (r: string)
    ensures r == fallback || (s.Some? && r == s.value)
    ensures Truthy(s) <==> (r != fallback || (s.Some? && s.value == fallback && fallback != ""))
    ensures fallback != "" ==> r != ""
  {
    if Truthy(s) then s.value else fallback
  }

  predicate IsUpper(c: char) { 'A' <= c <= 'Z' }

  /** ASCII-only `toLowerCase` of one character. */
  function LowerChar(c: char): char {
    if IsUpper(c) then (c as int + 32) as char else c
  }

  /** ASCII-only `String.prototype.toLowerCase`. */
  function Lower(s: string): (r: string)
    ensures |r| == |s|
    ensures forall i :: 0 <= i < |s| ==> r[i] == LowerChar(s[i])
    ensures forall i :: 0 <= i < |r| ==> !IsUpper(r[i])
  {
    seq(|s|, i requires 0 <= i < |s| => LowerChar(s[i]))
  }

  /** Lower-casing is idempotent: a lower-cased string is its own lower case. */
  lemma LowerIdempotent(s: string)
    ensures Lower(Lower(s)) == Lower(s)
  {
    var l := Lower(s);
    assert forall i :: 0 <= i < |l| ==> LowerChar(l[i]) == l[i];
  }

  /** `t` occurs in `s` starting at index `i`. */
  predicate OccursAt(s: string, t: string, i: int) {
    0 <= i && i + |t| <= |s| && s[i..i + |t|] == t
  }

  /** `String.prototype.includes`, scanning from the front. */
  function Includes(s: string, t: string): (b: bool)
    ensures b <==> exists i :: OccursAt(s, t, i)
    decreases |s|
  {
    if t <= s then
      assert OccursAt(s, t, 0);
      true
    else if |s| == 0 then
      assert forall i :: !OccursAt(s, t, i);
      false
    else
      var rest := Includes(s[1..], t);
      assert forall i :: OccursAt(s[1..], t, i) <==> OccursAt(s, t, i + 1) by {
        forall i ensures OccursAt(s[1..], t, i) <==> OccursAt(s, t, i + 1) {
          if 0 <= i && i + |t| <= |s[1..]| {
            assert s[1..][i..i + |t|] == s[i + 1..i + 1 + |t|];
          }
        }
      }
      assert !OccursAt(s, t, 0);
      assert forall i :: OccursAt(s, t, i) ==> OccursAt(s[1..], t, i - 1);
      rest
  }

  /** The empty string is included in every string. */
  lemma IncludesEmpty(s: string)
    ensures Includes(s, "")
  {
    assert OccursAt(s, "", 0);
  }

  // ---------------------------------------------------------------------
  // Sequences
  // ---------------------------------------------------------------------

  /** `a` is an order-preserving subsequence of `b`. */
  ghost predicate IsSubsequence<T>(a: seq<T>, b: seq<T>)
    decreases |b|
  {
    if |b| == 0 then |a| == 0
    else (|a| > 0 && a[0] == b[0] && IsSubsequence(a[1..], b[1..]))
         || IsSubsequence(a, b[1..])
  }

  /** `Array.prototype.filter`: keeps, in order, exactly the elements satisfying `p`. */
  function Filter<T(!new)>(s: seq<T>, p: T -> bool): (r: seq<T>)
    ensures |r| <= |s|
    ensures forall x :: x in r <==> x in s && p(x)
    ensures forall x :: multiset(r)[x] == if p(x) then multiset(s)[x] else 0
    ensures IsSubsequence(r, s)
  {
    if |s| == 0 then []
    else
      var rest := Filter(s[1..], p);
      assert s == [s[0]] + s[1..];
      if p(s[0]) then
        var r := [s[0]] + rest;
        assert r[1..] == rest;
        r
      else rest
  }

  /** Filtering with a predicate every element satisfies changes nothing. */
  lemma {:induction false} FilterAll<T(!new)>(s: seq<T>, p: T -> bool)
    requires forall i :: 0 <= i < |s| ==> p(s[i])
    ensures Filter(s, p) == s
  {
    if |s| > 0 {
      FilterAll(s[1..], p);
      assert s == [s[0]] + s[1..];
    }
  }

  /** Filtering by two predicates that agree everywhere gives the same sequence. */
  lemma {:induction false} FilterCongruent<T(!new)>(s: seq<T>, p: T -> bool, q: T -> bool)
    requires forall x :: p(x) == q(x)
    ensures Filter(s, p) == Filter(s, q)
  {
    if |s| > 0 {
      FilterCongruent(s[1..], p, q);
    }
  }

  /** Filtering by two predicates gives the same sequence in either order. */
  lemma {:induction false} FilterCommute<T(!new)>(s: seq<T>, p: T -> bool, q: T -> bool)
    ensures Filter(Filter(s, p), q) == Filter(Filter(s, q), p)
  {
    if |s| > 0 {
      FilterCommute(s[1..], p, q);
      var x := s[0];
      var rp := Filter(s[1..], p);
      var rq := Filter(s[1..], q);
      assert Filter(s, p) == if p(x) then [x] + rp else rp;
      assert Filter(s, q) == if q(x) then [x] + rq else rq;
      if p(x) {
        assert ([x] + rp)[1..] == rp;
      }
      if q(x) {
        assert ([x] + rq)[1..] == rq;
      }
    }
  }

  /** No element occurs twice. */
  predicate NoDuplicates<T(==)>(s: seq<T>) {
    forall i, j :: 0 <= i < j < |s| ==> s[i] != s[j]
  }

  /** In a sequence without duplicates every element occurs at most once. */
  lemma {:induction false} NoDuplicatesCount<T>(s: seq<T>, x: T)
    requires NoDuplicates(s)
    ensures multiset(s)[x] <= 1
  {
    if |s| > 0 {
      assert s == [s[0]] + s[1..];
      NoDuplicatesCount(s[1..], x);
      if x == s[0] {
        assert x !in s[1..];
      }
    }
  }

  /** A permutation of a sequence without duplicates has none either. */
  lemma NoDuplicatesPermutation<T>(a: seq<T>, b: seq<T>)
    requires multiset(a) == multiset(b) && NoDuplicates(b)
    ensures NoDuplicates(a)
  {
    forall i, j | 0 <= i < j < |a| ensures a[i] != a[j] {
      if a[i] == a[j] {
        assert a == a[..j] + [a[j]] + a[j + 1..];
        assert a[i] in a[..j];
        assert multiset(a)[a[i]] >= 2;
        NoDuplicatesCount(b, a[i]);
      }
    }
  }

  /** The first `n` elements, or all of them when there are fewer (`slice(0, n)`). */
  function Take<T>(s: seq<T>, n: nat): (r: seq<T>)
    ensures |r| == Min(n, |s|)
    ensures r <= s
  {
    if n <= |s| then s[..n] else s
  }

  /** `key` is non-increasing along `s`. */
  ghost predicate SortedDesc<T>(s: seq<T>, key: T -> int) {
    forall i, j :: 0 <= i < j < |s| ==> key(s[i]) >= key(s[j])
  }

  /**
    Inserts `x` into a non-increasing `s` in front of the first element whose
    key is not larger, so equal keys keep their original relative order when
    the sort inserts earlier elements into the already sorted rest.
   */
  function InsertDesc<T(!new)>(x: T, s: seq<T>, key: T -> int): (r: seq<T>)
    requires SortedDesc(s, key)
    ensures SortedDesc(r, key)
    ensures multiset(r) == multiset(s) + multiset{x}
    ensures |r| == |s| + 1
    ensures r[0] == x || (|s| > 0 && r[0] == s[0])
  {
    if |s| == 0 then [x]
    else if key(s[0]) > key(x) then
      var rest := InsertDesc(x, s[1..], key);
      assert s == [s[0]] + s[1..];
      var r := [s[0]] + rest;
      assert key(r[0]) >= key(r[1]);
      ConsSorted(r, key);
      r
    else
      [x] + s
  }

  /** A sequence whose tail is sorted and whose first two keys are in order is sorted. */
  lemma ConsSorted<T>(r: seq<T>, key: T -> int)
    requires |r| >= 2 && key(r[0]) >= key(r[1])
    requires SortedDesc(r[1..], key)
    ensures SortedDesc(r, key)
  {
    forall i, j | 0 <= i < j < |r| ensures key(r[i]) >= key(r[j]) {
      if i == 0 && j > 1 {
        assert key(r[1..][0]) >= key(r[1..][j - 1]);
      } else if i > 0 {
        assert key(r[1..][i - 1]) >= key(r[1..][j - 1]);
      }
    }
  }

  /** A stable sort into non-increasing `key` order (JavaScript's `sort` is stable). */
  function SortDesc<T(!new)>(s: seq<T>, key: T -> int): (r: seq<T>)
    ensures SortedDesc(r, key)
    ensures multiset(r) == multiset(s)
    ensures |r| == |s|
  {
    if |s| == 0 then []
    else
      assert s == [s[0]] + s[1..];
      InsertDesc(s[0], SortDesc(s[1..], key), key)
  }

  /** `$skip: skip` followed by `$limit: limit` on a sequence. */
  function Window<T>(s: seq<T>, skip: nat, limit: nat): (r: seq<T>)
    ensures |r| <= limit
    ensures skip <= |s| ==> r == s[skip..Min(skip + limit, |s|)]
    ensures skip > |s| ==> r == []
  {
    var lo := Min(skip, |s|);
    Take(s[lo..], limit)
  }
}

=== FILE: config.dfy ===
/**
  The shared API helper (`src/config.js`): the request `apiRequest` hands to
  `fetch` (URL, merged headers, the caller's other options) and the error it
  raises on a non-OK response.
 */
module Config {
  import opened Common

  const ApiUrl := "http://localhost:5001"
  const ContentTypeHeader := "Content-Type"
  const JsonType := "application/json"
  const AuthorizationHeader := "Authorization"
  const FallbackError := "API request failed"

  type Headers = map<string, string>

  /** The parsed `localStorage` user; `_id` may be missing from the stored object. */
  datatype StoredUser = StoredUser(id: Option<string>)

  /**
    The caller's `options`; every field may be left out. `others` holds the
    remaining `fetch` options (such as `credentials` or `mode`) by name.
   */
  datatype Options = Options(verb: Option<string>, body: Option<string>, headers: Option<Headers>,
                             others: map<string, string>)

  /** What is passed to `fetch`. */
  datatype Request = Request(url: string, verb: Option<string>, body: Option<string>, headers: Headers,
                             others: map<string, string>)

  /** `` `Bearer ${user._id}` ``: a missing id is interpolated as `undefined`. */
  function BearerToken(u: StoredUser): (token: string)
    ensures "Bearer " <= token
    ensures u.id.Some? ==> token[|"Bearer "|..] == u.id.value
    ensures u.id.None? ==> token[|"Bearer "|..] == "undefined"
  {
    "Bearer " + u.id.GetOr("undefined")
  }

  /** The headers every request starts from. */
  function DefaultHeaders(user: Option<StoredUser>): (h: Headers)
    ensures ContentTypeHeader in h && h[ContentTypeHeader] == JsonType
    ensures AuthorizationHeader in h <==> user.Some?
    ensures user.Some? ==> h[AuthorizationHeader] == BearerToken(user.value)
    ensures h.Keys <= {ContentTypeHeader, AuthorizationHeader}
  {
    var base := map[ContentTypeHeader := JsonType];
    match user
    case None => base
    case Some(u) => base[AuthorizationHeader := BearerToken(u)]
  }

  /** `{ ...defaults, ...callerHeaders }`: the caller's entries replace defaults with the same key. */
  function MergeHeaders(defaults: Headers, caller: Option<Headers>): (h: Headers)
    ensures h.Keys == defaults.Keys + (if caller.Some? then caller.value.Keys else {})
    ensures caller.Some? ==> forall k :: k in caller.value ==> h[k] == caller.value[k]
    ensures forall k :: k in defaults && (caller.None? || k !in caller.value) ==> h[k] == defaults[k]
  {
    match caller
    case None => defaults
    case Some(c) => defaults + c
  }

  /** The `fetch` call `apiRequest` makes for `endpoint`. */
  function BuildRequest(endpoint: string, options: Options, user: Option<StoredUser>): (r: Request)
    ensures ApiUrl <= r.url && r.url[|ApiUrl|..] == endpoint
    ensures r.verb == options.verb && r.body == options.body && r.others == options.others
  {
    Request(ApiUrl + endpoint, options.verb, options.body, MergeHeaders(DefaultHeaders(user), options.headers),
            options.others)
  }

  /**
    With no caller headers the request carries exactly the defaults: the JSON
    content type, plus the bearer token when a user is stored.
   */
  lemma DefaultsWhenCallerSilent(endpoint: string, verb: Option<string>, body: Option<string>,
                                 others: map<string, string>, user: Option<StoredUser>)
    ensures var h := BuildRequest(endpoint, Options(verb, body, None, others), user).headers;
      && h[ContentTypeHeader] == JsonType
      && (AuthorizationHeader in h <==> user.Some?)
      && (user.Some? ==> h[AuthorizationHeader] == BearerToken(user.value))
  {
  }

  /**
    A caller header replaces the default of the same name, and every default
    the caller does not name reaches the request unchanged.
   */
  lemma CallerOverridesDefaults(endpoint: string, options: Options, user: Option<StoredUser>, key: string)
    requires options.headers.Some?
    ensures var h := BuildRequest(endpoint, options, user).headers;
      var d := DefaultHeaders(user);
      && (key in options.headers.value ==> key in h && h[key] == options.headers.value[key])
      && (key in d && key !in options.headers.value ==> key in h && h[key] == d[key])
      && (key !in d && key !in options.headers.value ==> key !in h)
  {
  }

  /** The content type is JSON unless the caller sets it. */
  lemma ContentTypeIsJsonUnlessOverridden(endpoint: string, options: Options, user: Option<StoredUser>)
    requires options.headers.None? || ContentTypeHeader !in options.headers.value
    ensures BuildRequest(endpoint, options, user).headers[ContentTypeHeader] == JsonType
  {
  }

  /** Two endpoints reach two different URLs: the prefix is the same for all. */
  lemma UrlDeterminesEndpoint(e1: string, e2: string, o1: Options, o2: Options, u1: Option<StoredUser>, u2: Option<StoredUser>)
    requires BuildRequest(e1, o1, u1).url == BuildRequest(e2, o2, u2).url
    ensures e1 == e2
  {
    var url := BuildRequest(e1, o1, u1).url;
    assert e1 == url[|ApiUrl|..] == e2;
  }

  /** A response: OK with a JSON payload, or not OK with the `error` field of its JSON body. */
  datatype Response = OkResponse(payload: string) | FailedResponse(error: Option<string>)

  /** What `apiRequest` resolves to, or the message of the error it throws. */
  function Settle(resp: Response): (r: Result<string>)
    ensures r.Ok? <==> resp.OkResponse?
    ensures r.Ok? ==> r.value == resp.payload
    ensures resp.FailedResponse? && Truthy(resp.error) ==> r == Err(resp.error.value)
    ensures resp.FailedResponse? && !Truthy(resp.error) ==> r == Err(FallbackError)
  {
    match resp
    case OkResponse(p) => Ok(p)
    case FailedResponse(e) => Err(OrElse(e, FallbackError))
  }

  /** A thrown error always carries a non-empty message. */
  lemma ErrorMessageNeverEmpty(resp: Response)
    requires resp.FailedResponse?
    ensures Settle(resp).Err? && Settle(resp).message != ""
  {
  }
}

=== FILE: mybooks.dfy ===
/**
  The "My Books" page (`src/components/MyBooks.jsx`): how an issued book's
  card resolves its cover and fills in missing details, the guard in front
  of the reader, and the per-book reading-progress map with the page the
  reader reopens at.
 */
module MyBooks {
  import opened Common

  const PlaceholderHost := "https://via.placeholder.com"
  const PlaceholderCover := PlaceholderHost + "/400x600?text=No+Cover+Available"
  const UnknownTitle := "Unknown Title"
  const UnknownAuthor := "Unknown"
  const Uncategorized := "Uncategorized"
  const NoPdfMessage := "PDF not available for this book"

  /** The populated `bookDetails` of an issued entry; any field may be missing. */
  datatype BookDetails = BookDetails(
    bookName: Option<string>,
    author: Option<string>,
    category: Option<string>,
    rating: Option<real>,
    cover: Option<string>,
    pdf: Option<string>)

  const NoDetails := BookDetails(None, None, None, None, None, None)

  /** One entry of `GET /library/issued-books/:userId`. */
  datatype IssuedBook = IssuedBook(bookID: string, bookDetails: Option<BookDetails>)

  /** `issuedBook.bookDetails || {}`. */
  function Details(ib: IssuedBook): BookDetails {
    ib.bookDetails.GetOr(NoDetails)
  }

  // ---------------------------------------------------------------------
  // Cover and fallbacks
  // ---------------------------------------------------------------------

  /** The `src` of the cover image. */
  function CoverUrl(cover: Option<string>): (url: string)
    ensures "http" <= url
    ensures !Truthy(cover) ==> url == PlaceholderCover
    ensures Truthy(cover) && "http" <= cover.value ==> url == cover.value
    ensures Truthy(cover) && !("http" <= cover.value) ==> url == ServerOrigin + cover.value
  {
    if Truthy(cover) then
      if "http" <= cover.value then cover.value
      else
        assert (ServerOrigin + cover.value)[..4] == ServerOrigin[..4];
        ServerOrigin + cover.value
    else
      assert PlaceholderCover[..4] == PlaceholderHost[..4];
      PlaceholderCover
  }

  /** Resolving an already resolved cover changes nothing. */
  lemma CoverUrlIdempotent(cover: Option<string>)
    ensures CoverUrl(Some(CoverUrl(cover))) == CoverUrl(cover)
  {
  }

  /** What a card in the grid displays. */
  datatype CardView = CardView(
    title: string,
    altText: string,
    rating: real,
    author: string,
    category: string,
    coverUrl: string,
    readButton: bool)

  /** The card rendered for one issued book. */
  function Card(ib: IssuedBook): (c: CardView)
    ensures c.title != "" && c.author != "" && c.category != ""
    ensures ib.bookDetails.None? ==>
      c.title == UnknownTitle && c.author == UnknownAuthor && c.category == Uncategorized
      && c.rating == 0.0 && c.coverUrl == PlaceholderCover && !c.readButton
    ensures Truthy(Details(ib).bookName) ==> c.title == Details(ib).bookName.value
    ensures !Truthy(Details(ib).bookName) ==> c.title == UnknownTitle
    ensures Truthy(Details(ib).author) ==> c.author == Details(ib).author.value
    ensures !Truthy(Details(ib).author) ==> c.author == UnknownAuthor
    ensures Truthy(Details(ib).category) ==> c.category == Details(ib).category.value
    ensures !Truthy(Details(ib).category) ==> c.category == Uncategorized
    ensures Truthy(Details(ib).bookName) ==> c.altText == Details(ib).bookName.value
    ensures !Truthy(Details(ib).bookName) ==> c.altText == "Book Cover"
    ensures c.rating == if Details(ib).rating.Some? then Details(ib).rating.value else 0.0
    ensures c.coverUrl == CoverUrl(Details(ib).cover)
    ensures c.readButton <==> Truthy(Details(ib).pdf)
  {
    var d := Details(ib);
    CardView(
      OrElse(d.bookName, UnknownTitle),
      OrElse(d.bookName, "Book Cover"),
      d.rating.GetOr(0.0),
      OrElse(d.author, UnknownAuthor),
      OrElse(d.category, Uncategorized),
      CoverUrl(d.cover),
      Truthy(d.pdf))
  }

  // ---------------------------------------------------------------------
  // Reading progress
  // ---------------------------------------------------------------------

  /** `handlePageChange`: upsert the page for one book. */
  function PageChange(progress: map<string, int>, bookId: string, page: int): (r: map<string, int>)
    ensures bookId in r && r[bookId] == page
    ensures r.Keys == progress.Keys + {bookId}
    ensures forall k :: k in progress && k != bookId ==> r[k] == progress[k]
  {
    progress[bookId := page]
  }

  /** `readingProgress[id] || 1`: the stored page, or 1 when absent or 0. */
  function InitialPage(progress: map<string, int>, bookId: string): (page: int)
    ensures page != 0
    ensures bookId in progress && progress[bookId] != 0 ==> page == progress[bookId]
    ensures bookId !in progress || progress[bookId] == 0 ==> page == 1
  {
    if bookId in progress && progress[bookId] != 0 then progress[bookId] else 1
  }

  /** The reader reports page changes 1-based (`e.currentPage + 1`). */
  function ReportedPage(zeroBasedIndex: nat): (page: int)
    ensures page >= 1
  {
    zeroBasedIndex + 1
  }

  /** The reader opens at `initialPage - 1`: a page it reported is reopened at the index it came from. */
  function StartIndex(initialPage: int): (index: int)
    ensures initialPage >= 1 ==> index >= 0 && ReportedPage(index) == initialPage
    ensures initialPage < 1 ==> index < 0
  {
    initialPage - 1
  }

  /**
    Saving a page and reopening the same book resumes at that page: the
    reader starts at the index it last reported.
   */
  lemma ResumeWherePaused(progress: map<string, int>, bookId: string, index: nat)
    ensures StartIndex(InitialPage(PageChange(progress, bookId, ReportedPage(index)), bookId)) == index
  {
  }

  /** Saving progress for one book does not move where another book reopens. */
  lemma PageChangeIsolated(progress: map<string, int>, bookId: string, other: string, page: int)
    requires other != bookId
    ensures InitialPage(PageChange(progress, bookId, page), other) == InitialPage(progress, other)
  {
  }

  /** The reader as opened by `handleReadBook`. */
  datatype Reader = Reader(pdfUrl: string, bookName: Option<string>, initialPage: int)

  /** `handleReadBook` for an issued book: refuse without a `pdf`, else open at the saved page. */
  function OpenReader(progress: map<string, int>, ib: IssuedBook): (r: Result<Reader>)
    ensures r.Err? <==> !Truthy(Details(ib).pdf)
    ensures r.Err? ==> r.message == NoPdfMessage
    ensures r.Ok? ==> (r.value.pdfUrl == ServerOrigin + Details(ib).pdf.value
      && r.value.initialPage == InitialPage(progress, ib.bookID)
      && r.value.bookName == Details(ib).bookName)
  {
    var d := Details(ib);
    if !Truthy(d.pdf) then Err(NoPdfMessage)
    else Ok(Reader(ServerOrigin + d.pdf.value, d.bookName, InitialPage(progress, ib.bookID)))
  }

  /** A card offers Read Book exactly when pressing it opens the reader rather than the no-PDF toast. */
  lemma ReadButtonIffReaderOpens(progress: map<string, int>, ib: IssuedBook)
    ensures Card(ib).readButton <==> OpenReader(progress, ib).Ok?
    ensures Card(ib).readButton ==> OpenReader(progress, ib).value.bookName == Details(ib).bookName
  {
  }
}

=== FILE: notifications.dfy ===
/**
  The notification bell (`src/components/Notifications.jsx`): the unread
  badge, the style and icon chosen by a notification's type, the
  navigation a click triggers, and when "Clear all" is offered.
 */
module Notifications {
  import opened Common

  const NewBookKind := "NEW_BOOK"
  const BookDeletedKind := "BOOK_DELETED"
  const BooksPath := "/books"

  /** One notification as the server sends it (`_id`, `type`, `read`, `bookId`). */
  datatype Notification = Notification(id: string, kind: string, read: bool, bookId: Option<string>)

  predicate Unread(n: Notification) { !n.read }

  // ---------------------------------------------------------------------
  // Unread badge
  // ---------------------------------------------------------------------

  /** How many notifications are not yet read. */
  function UnreadCount(ns: seq<Notification>): (n: nat)
    ensures n <= |ns|
    ensures n == 0 <==> forall i :: 0 <= i < |ns| ==> ns[i].read
    ensures n == |ns| <==> forall i :: 0 <= i < |ns| ==> !ns[i].read
  {
    if |ns| == 0 then 0
    else
      var rest := UnreadCount(ns[1..]);
      assert forall i :: 1 <= i < |ns| ==> ns[i] == ns[1..][i - 1];
      (if ns[0].read then 0 else 1) + rest
  }

  /** The count is the length of the list filtered to its unread entries, as `filter(n => !n.read).length`. */
  lemma {:induction false} UnreadCountIsFilterLength(ns: seq<Notification>)
    ensures UnreadCount(ns) == |Filter(ns, Unread)|
  {
    if |ns| > 0 {
      UnreadCountIsFilterLength(ns[1..]);
      var rest := Filter(ns[1..], Unread);
      assert Filter(ns, Unread) == if Unread(ns[0]) then [ns[0]] + rest else rest;
    }
  }

  /** Counting splits over a concatenation: new notifications add their own unread ones. */
  lemma {:induction false} UnreadCountAppend(a: seq<Notification>, b: seq<Notification>)
    ensures UnreadCount(a + b) == UnreadCount(a) + UnreadCount(b)
  {
    if |a| == 0 {
      assert a + b == b;
    } else {
      assert (a + b)[1..] == a[1..] + b;
      UnreadCountAppend(a[1..], b);
    }
  }

  /** The red badge over the bell is rendered. */
  function ShowBadge(ns: seq<Notification>): (shown: bool)
    ensures shown <==> exists i :: 0 <= i < |ns| && !ns[i].read
  {
    UnreadCount(ns) > 0
  }

  // ---------------------------------------------------------------------
  // Style and icon
  // ---------------------------------------------------------------------

  /** The accent a notification type is drawn in. */
  datatype Hue = Green | Red | Blue

  function HueName(h: Hue): string {
    match h
    case Green => "green"
    case Red => "red"
    case Blue => "blue"
  }

  /** `getNotificationStyle(type)`: the row's left border, in the hue the type maps to. */
  function Style(kind: string): (s: string)
    ensures s == "border-l-4 border-" + HueName(HueOf(kind)) + "-500"
  {
    if kind == NewBookKind then "border-l-4 border-green-500"
    else if kind == BookDeletedKind then "border-l-4 border-red-500"
    else "border-l-4 border-blue-500"
  }

  datatype Glyph = BookPlus | Trash | BookOpen

  /** `NotificationIcon`: the glyph and its colour class. */
  datatype Icon = Icon(glyph: Glyph, colour: string)

  function IconOf(kind: string): (icon: Icon)
    ensures icon.glyph == BookPlus <==> kind == NewBookKind
    ensures icon.glyph == Trash <==> kind == BookDeletedKind
    ensures icon.colour == "text-" + HueName(HueOf(kind)) + "-500"
  {
    if kind == NewBookKind then Icon(BookPlus, "text-green-500")
    else if kind == BookDeletedKind then Icon(Trash, "text-red-500")
    else Icon(BookOpen, "text-blue-500")
  }

  /** The hue a type maps to: new books green, deletions red, anything else blue. */
  function HueOf(kind: string): (h: Hue)
    ensures h == Green <==> kind == NewBookKind
    ensures h == Red <==> kind == BookDeletedKind
    ensures h == Blue <==> kind != NewBookKind && kind != BookDeletedKind
  {
    if kind == NewBookKind then Green
    else if kind == BookDeletedKind then Red
    else Blue
  }

  /**
    The border and the icon of a row, written out separately in the
    component, name the same colour: the border class after its fixed
    `border-l-4 border-` head equals the icon class after `text-`.
   */
  lemma StyleAndIconAgree(kind: string)
    ensures Style(kind)[|"border-l-4 border-"|..] == IconOf(kind).colour[|"text-"|..]
  {
    var h := HueName(HueOf(kind)) + "-500";
    assert Style(kind) == "border-l-4 border-" + h;
    assert IconOf(kind).colour == "text-" + h;
  }

  /** Two types get the same border exactly when they map to the same hue. */
  lemma StyleDeterminedByHue(a: string, b: string)
    ensures Style(a) == Style(b) <==> HueOf(a) == HueOf(b)
  {
    var ga := "border-l-4 border-green-500";
    var ra := "border-l-4 border-red-500";
    var ba := "border-l-4 border-blue-500";
    assert ga[18] == 'g' && ra[18] == 'r' && ba[18] == 'b';
  }

  // ---------------------------------------------------------------------
  // Click and dropdown
  // ---------------------------------------------------------------------

  /** `navigate('/books', { state: { scrollToBookId, highlightBookId } })`. */
  datatype Navigation = Navigation(path: string, scrollToBookId: string, highlightBookId: string)

  /** What a click leads to once the mark-as-read request settles. */
  datatype ClickEffect = ClickEffect(navigation: Option<Navigation>, closeDropdown: bool)

  /**
    `handleNotificationClick`. `markReadSettled` is false when the
    mark-as-read request throws; the handler then stops and only logs.
   */
  function Click(n: Notification, markReadSettled: bool): (e: ClickEffect)
    ensures e.navigation.Some? <==> markReadSettled && n.kind == NewBookKind && Truthy(n.bookId)
    ensures e.navigation.Some? ==> e.navigation.value == Navigation(BooksPath, n.bookId.value, n.bookId.value)
    ensures e.closeDropdown <==> markReadSettled
  {
    if !markReadSettled then ClickEffect(None, false)
    else if n.kind == NewBookKind && Truthy(n.bookId) then
      ClickEffect(Some(Navigation(BooksPath, n.bookId.value, n.bookId.value)), true)
    else ClickEffect(None, true)
  }

  /** Only new-book notifications ever navigate; deletions and other types never do. */
  lemma OnlyNewBookNavigates(n: Notification, settled: bool)
    requires n.kind != NewBookKind
    ensures Click(n, settled).navigation.None?
    ensures HueOf(n.kind) != Green
  {
  }

  /** The bell button flips the dropdown. */
  function ToggleOpen(isOpen: bool): (r: bool)
    ensures r != isOpen
  {
    !isOpen
  }

  /** "Clear all" is rendered. */
  function ClearAllOffered(ns: seq<Notification>): (offered: bool)
    ensures offered <==> ns != []
  {
    |ns| > 0
  }

  /** "No notifications" is rendered in place of the list. */
  function EmptyNoticeShown(ns: seq<Notification>): (shown: bool)
    ensures shown <==> ns == []
  {
    |ns| == 0
  }

  /**
    The open dropdown shows exactly one of "Clear all" and the empty notice,
    and whenever the badge is up there is something to clear.
   */
  lemma DropdownHeaderConsistent(ns: seq<Notification>)
    ensures ClearAllOffered(ns) != EmptyNoticeShown(ns)
    ensures ShowBadge(ns) ==> ClearAllOffered(ns)
  {
  }
}

=== FILE: preview.dfy ===
/**
  The preview reader (`src/components/PDFViewer.jsx`): a page index moved
  by next/previous buttons over a list of pre-rendered pages, and the book
  id the preview request is derived from.
 */
module Preview {
  import opened Common

  /** The reader's state: how many preview pages are loaded, and the shown index. */
  datatype Viewer = Viewer(pageCount: nat, current: int)

  /** Before loading: no pages, index 0. */
  const Initial := Viewer(0, 0)

  /** The page index stays within the loaded pages (index 0 when there are none). */
  predicate Valid(v: Viewer) {
    0 <= v.current <= Max(0, v.pageCount - 1)
  }

  /** `setPages(data.pages)`: the page list changes, the index is left as it is. */
  function Load(v: Viewer, pageCount: nat): (r: Viewer)
    ensures r.pageCount == pageCount && r.current == v.current
    ensures Valid(r) <==> 0 <= v.current <= Max(0, pageCount - 1)
  {
    v.(pageCount := pageCount)
  }

  /** `handleNextPage`. */
  function Next(v: Viewer): (r: Viewer)
    ensures r.pageCount == v.pageCount
    ensures Valid(v) ==> Valid(r)
    ensures r.current == v.current || r.current == v.current + 1
    ensures r.current == v.current + 1 <==> v.current < v.pageCount - 1
  {
    if v.current < v.pageCount - 1 then v.(current := v.current + 1) else v
  }

  /** `handlePrevPage`. */
  function Prev(v: Viewer): (r: Viewer)
    ensures r.pageCount == v.pageCount
    ensures Valid(v) ==> Valid(r)
    ensures r.current == v.current || r.current == v.current - 1
    ensures r.current == v.current - 1 <==> v.current > 0
  {
    if v.current > 0 then v.(current := v.current - 1) else v
  }

  /** The previous-page button's `disabled` attribute: set on the first page, where pressing would do nothing. */
  function PrevDisabled(v: Viewer): (disabled: bool)
    ensures disabled ==> Prev(v) == v
    ensures Valid(v) && !disabled ==> Prev(v).current == v.current - 1
  {
    v.current == 0
  }

  /** The next-page button's `disabled` attribute: set on the last page, where pressing would do nothing. */
  function NextDisabled(v: Viewer): (disabled: bool)
    ensures disabled ==> Next(v) == v
    ensures Valid(v) && v.pageCount > 0 && !disabled ==> Next(v).current == v.current + 1
  {
    v.current == v.pageCount - 1
  }

  /** Stepping forward then back returns to the same page when not on the last one. */
  lemma NextThenPrev(v: Viewer)
    requires Valid(v) && v.current < v.pageCount - 1
    ensures Prev(Next(v)) == v
  {
  }

  /** Stepping back then forward returns to the same page when not on the first one. */
  lemma PrevThenNext(v: Viewer)
    requires Valid(v) && v.current > 0
    ensures Next(Prev(v)) == v
  {
  }

  /**
    With pages loaded and the index in range, each button is disabled
    exactly when pressing it would change nothing.
   */
  lemma DisabledIffInert(v: Viewer)
    requires Valid(v) && v.pageCount > 0
    ensures PrevDisabled(v) <==> Prev(v) == v
    ensures NextDisabled(v) <==> Next(v) == v
  {
  }

  /** With no pages loaded the next button stays enabled, yet pressing it changes nothing. */
  lemma EmptyPreviewNextEnabledButInert(v: Viewer)
    requires v.pageCount == 0 && Valid(v)
    ensures !NextDisabled(v) && Next(v) == v
  {
  }

  datatype Press = NextPress | PrevPress

  /** The state after a sequence of button presses. */
  function Run(v: Viewer, presses: seq<Press>): Viewer
    decreases |presses|
  {
    if |presses| == 0 then v
    else Run(if presses[0] == NextPress then Next(v) else Prev(v), presses[1..])
  }

  /**
    Starting at index 0 and loading any number of pages, every sequence of
    presses keeps the index within `0 .. max(0, pages - 1)`.
   */
  lemma {:induction false} PressesKeepIndexInRange(v: Viewer, presses: seq<Press>)
    requires Valid(v)
    ensures Valid(Run(v, presses))
    ensures Run(v, presses).pageCount == v.pageCount
    decreases |presses|
  {
    if |presses| > 0 {
      var w := if presses[0] == NextPress then Next(v) else Prev(v);
      PressesKeepIndexInRange(w, presses[1..]);
    }
  }

  /** The first load from the initial state yields a valid reader. */
  lemma FirstLoadValid(pageCount: nat)
    ensures Valid(Load(Initial, pageCount))
  {
  }

  // ---------------------------------------------------------------------
  // Book id derivation: `pdfUrl.split('/').pop().split('.')[0]`
  // ---------------------------------------------------------------------

  /** `s.split('/').pop()`: the text after the last `/`, or all of `s` when there is none. */
  function LastSegment(s: string): (r: string)
    ensures '/' !in r
    ensures |r| <= |s| && s[|s| - |r|..] == r
    ensures |r| < |s| ==> s[|s| - |r| - 1] == '/'
  {
    if |s| == 0 then ""
    else if s[|s| - 1] == '/' then ""
    else
      var rest := LastSegment(s[..|s| - 1]);
      assert s[..|s| - 1][|s| - 1 - |rest|..] == s[|s| - 1 - |rest|..|s| - 1];
      rest + [s[|s| - 1]]
  }

  /** `s.split('.')[0]`: the text before the first `.`, or all of `s` when there is none. */
  function BeforeFirstDot(s: string): (r: string)
    ensures '.' !in r
    ensures r <= s
    ensures |r| < |s| ==> s[|r|] == '.'
  {
    if |s| == 0 then ""
    else if s[0] == '.' then ""
    else [s[0]] + BeforeFirstDot(s[1..])
  }

  /** The id sent to `/library/preview-pages/:bookId`. */
  function PreviewBookId(pdfUrl: string): (r: string)
    ensures '/' !in r && '.' !in r
    ensures r <= LastSegment(pdfUrl)
    ensures |r| < |LastSegment(pdfUrl)| ==> LastSegment(pdfUrl)[|r|] == '.'
  {
    var seg := LastSegment(pdfUrl);
    var r := BeforeFirstDot(seg);
    assert '/' !in r by {
      assert forall i :: 0 <= i < |r| ==> r[i] == seg[i];
    }
    r
  }

  /** A file name with no directory part and an extension yields its stem. */
  lemma BookIdOfUploadPath(dir: string, stem: string, ext: string)
    requires '/' !in stem && '.' !in stem && '/' !in ext
    requires |dir| == 0 || dir[|dir| - 1] == '/'
    ensures PreviewBookId(dir + stem + "." + ext) == stem
  {
    var url := dir + stem + "." + ext;
    var file := stem + "." + ext;
    assert url == dir + file;
    SuffixAfterSlash(dir, file);
    StemBeforeDot(stem, ext);
  }

  lemma {:induction false} SuffixAfterSlash(dir: string, file: string)
    requires '/' !in file
    requires |dir| == 0 || dir[|dir| - 1] == '/'
    ensures LastSegment(dir + file) == file
    decreases |file|
  {
    var s := dir + file;
    if |file| == 0 {
      assert s == dir;
    } else {
      var n := |file| - 1;
      assert s[..|s| - 1] == dir + file[..n];
      SuffixAfterSlash(dir, file[..n]);
      assert file == file[..n] + [file[n]];
    }
  }

  lemma {:induction false} StemBeforeDot(stem: string, ext: string)
    requires '.' !in stem
    ensures BeforeFirstDot(stem + "." + ext) == stem
    decreases |stem|
  {
    if |stem| > 0 {
      assert (stem + "." + ext)[1..] == stem[1..] + "." + ext;
      StemBeforeDot(stem[1..], ext);
      assert stem == [stem[0]] + stem[1..];
    }
  }
}

=== FILE: requestbook.dfy ===
/**
  The new-book request form (`src/components/RequestBook.jsx`): which
  checks run before anything is sent and in what order, the JSON body of
  `POST /library/request-new-book`, and the toast shown for the reply.
 */
module RequestBook {
  import opened Common

  const MissingFieldsMessage := "Please fill in all required fields"
  const LoginMessage := "Please login to request books"
  const SubmittedMessage := "Book request submitted successfully!"
  const FailedMessage := "Failed to submit request"
  const PendingStatus := "pending"

  /** The three text inputs of the form. */
  datatype Fields = Fields(bookName: string, author: string, description: string)

  const EmptyFields := Fields("", "", "")

  /** The logged-in user passed to the form; each field may be missing. */
  datatype Requester = Requester(id: Option<string>, username: Option<string>, email: Option<string>)

  /** The JSON body of the request. */
  datatype Payload = Payload(
    userId: Option<string>,
    userName: Option<string>,
    userEmail: Option<string>,
    bookName: string,
    author: string,
    description: string,
    status: string)

  datatype Toast = Toast(message: string, isError: bool)

  /** What pressing submit does: show an error toast and send nothing, or send a payload. */
  datatype Step = Rejected(toast: Toast) | Send(payload: Payload)

  /** Every input holds some text. */
  predicate Complete(f: Fields) {
    f.bookName != "" && f.author != "" && f.description != ""
  }

  /** The synchronous part of `handleSubmit`, up to the request. */
  function Submit(f: Fields, user: Option<Requester>): (r: Step)
    ensures r.Send? <==> Complete(f) && user.Some?
    ensures !Complete(f) ==> r == Rejected(Toast(MissingFieldsMessage, true))
    ensures Complete(f) && user.None? ==> r == Rejected(Toast(LoginMessage, true))
    ensures r.Send? ==> (r.payload.bookName == f.bookName && r.payload.author == f.author
      && r.payload.description == f.description)
  {
    if !Complete(f) then Rejected(Toast(MissingFieldsMessage, true))
    else match user
      case None => Rejected(Toast(LoginMessage, true))
      case Some(u) => Send(Payload(u.id, u.username, u.email, f.bookName, f.author, f.description, PendingStatus))
  }

  /**
    The fields are checked before the user: an incomplete form reports the
    missing fields whether or not someone is logged in.
   */
  lemma FieldCheckComesFirst(f: Fields, u: Requester)
    requires !Complete(f)
    ensures Submit(f, None) == Submit(f, Some(u))
    ensures Submit(f, None).toast.message == MissingFieldsMessage
  {
  }

  /** A sent request carries the user's id, name and e-mail and is always pending. */
  lemma PayloadCopiesUser(f: Fields, u: Requester)
    requires Complete(f)
    ensures Submit(f, Some(u)).Send?
    ensures var p := Submit(f, Some(u)).payload;
      p.userId == u.id && p.userName == u.username && p.userEmail == u.email
      && p.status == PendingStatus
  {
  }

  /**
    The toast for the reply: the success text when the response is OK,
    else the server's `message` when it is a non-empty string, else the
    fallback text.
   */
  function ReplyToast(ok: bool, serverMessage: Option<string>): (t: Toast)
    ensures t.isError <==> !ok
    ensures ok ==> t.message == SubmittedMessage
    ensures !ok && Truthy(serverMessage) ==> t.message == serverMessage.value
    ensures !ok && !Truthy(serverMessage) ==> t.message == FailedMessage
  {
    if ok then Toast(SubmittedMessage, false)
    else Toast(OrElse(serverMessage, FailedMessage), true)
  }

  /** The inputs once the reply has arrived: cleared after a success, kept after a failure. */
  function FieldsAfterReply(f: Fields, ok: bool): (r: Fields)
    ensures ok ==> r == EmptyFields && !Complete(r)
    ensures !ok ==> r == f
  {
    if ok then EmptyFields else f
  }

  /**
    Once the timer after a successful request has cleared the form, pressing
    submit again sends nothing and asks for the fields, even with a user
    logged in.
   */
  lemma NoResendAfterSuccess(f: Fields, user: Option<Requester>)
    ensures Submit(FieldsAfterReply(f, true), user) == Rejected(Toast(MissingFieldsMessage, true))
  {
  }

  /** A failed request keeps the inputs, so submitting again sends the same body. */
  lemma RetryAfterFailureResends(f: Fields, u: Requester)
    requires Complete(f)
    ensures Submit(FieldsAfterReply(f, false), Some(u)) == Submit(f, Some(u))
    ensures Submit(f, Some(u)).Send?
  {
  }
}
